=== FILE: README.md ===
# Inventory bookkeeping model

A Dafny model of the bookkeeping rules of a small Flask/SQLite inventory
application. The application tracks three kinds of items: devices
(`dispositivos`), sale products (`productos_venta`) and general material
(`material_general`). Every item belongs to a group (`grupos`) and carries a
barcode, and every issued barcode is recorded in a reservation table
(`codigos_barras`).

The database is an immutable `Store` record. It holds the groups and the three
item tables as maps from id to row, one AUTOINCREMENT counter per table, and
the reservation set. Each handler is a pure function from the store and the
request to an outcome and the store it leaves behind. Outside inputs are
parameters:

- the clock readings the barcode loop sees;
- today's date;
- the URL of an uploaded photo;
- which texts `float()` accepts;
- where a store call raises.

Modules:

- `Wrappers`: `Option`.
- `Forms`: submitted forms as maps, and the ordered required-field and
  missing-key scans shared by the server and the browser.
- `Uploads`: the photo extension whitelist (`allowed_file`).
- `Store`: the store, its well-formedness invariant `Wf`, and `init_db`'s
  seeding of the default groups. `Wf` says:
  - ids are below their counters;
  - group names are unique;
  - every item's barcode is reserved;
  - no two items share a barcode.
- `Barcodes`: how a code is derived from a clock reading, the retry loop of
  `generar_codigo_barras`, and `generar_codigos_barras`.
- `Items`: creating (`agregar_producto`), editing (`editar_producto`) and
  deleting (`eliminar_producto`) items, and the proofs that each keeps `Wf`.
- `Queries`: barcode search (`buscar_producto`), a group's inventory
  (`inventario_grupo`), and the sheet, file-name and row choices of
  `exportar_excel`.
- `Client`: the browser's `validarFormulario` and `actualizarEstadoCanalVPN`.

Several behaviours of the code are modelled as written, because the proofs
show how the parts disagree:

- The browser is stricter than the server. A device with a VPN whose form
  has no `canal_vpn` passes the server's required-field check but not the
  browser's (`Client.ClientStricterOnMissingChannel`).
- Creating a device exempts a device without VPN from the (vpn, canal_vpn)
  uniqueness rule. Editing has no such exemption, so two such devices are
  created but neither can be re-saved
  (`Items.NoVpnEditRejectedAfterTwoCreates`).
- A code is reserved before the insert runs. A failed insert therefore
  leaves a reserved code that no row carries (`Items.Create`).
- An unknown `tipo` on create still issues a code and reports success
  without inserting a row, so a search for that code finds nothing
  (`Queries.CreateThenSearch`).
- Codes come from `str(timestamp)`, and Python drops trailing zeros from a
  float's text. A code can therefore be shorter than twelve digits
  (`Barcodes.ShortReadingGivesShortCode`).
- The group page of an unknown group is not found, while exporting that
  group gives empty sheets (`Queries.ExportAgreesWithListing`).

## Model

| member | source | states |
|---|---|---|
| `Forms.FirstEmpty` | appinventario/app.py:206-212 | the index of the first listed field that is missing or empty, with every earlier field filled; None exactly when every field is filled |
| `Forms.FirstAbsent` | appinventario/app.py:277-311 | the index of the first listed key that the form lacks (the first `request.form[...]` that raises), with every earlier key present; None exactly when all are present |
| `Uploads.LastDot` | appinventario/app.py:27 | the position of the last '.' of a name: a dot, with no dot after it; None exactly when the name has no dot |
| `Uploads.AllowedFile` | appinventario/app.py:25-27 | an accepted name contains a '.' |
| `Uploads.AllowedFileOfStemAndExtension` | appinventario/app.py:19-27 | a name `stem.ext`, with no dot in `ext`, is accepted exactly when the lower-cased `ext` is png, jpg, jpeg, gif or webp, whatever the stem contains |
| `Uploads.NoDotRejected` | appinventario/app.py:26 | a name without a dot is refused |
| `Uploads.UpperCaseExtensionAccepted` | appinventario/app.py:27 | the extension is compared after lower-casing ("foto.JPG" is accepted) |
| `Uploads.InnerExtensionIgnored` | appinventario/app.py:27 | only the text after the last dot counts ("archivo.png.exe" is refused) |
| `Barcodes.StripDots` | appinventario/app.py:108 | removing the dots leaves no dot, never lengthens the text, and leaves a dotless text unchanged |
| `Barcodes.LastN` | appinventario/app.py:108 | `[-12:]` keeps a suffix of the text, of length twelve or the whole text when shorter |
| `Barcodes.CodeOf` | appinventario/app.py:108 | a candidate code has no dot and at most twelve characters, and exactly twelve when the reading has at least twelve non-dot characters |
| `Barcodes.StripOneDot` | appinventario/app.py:108 | removing the dot of `secs.frac` concatenates the two parts |
| `Barcodes.TimestampCode` | appinventario/app.py:108 | the code of a reading `secs.frac` is the last twelve characters of `secs + frac`, or all of them when there are fewer |
| `Barcodes.ShortReadingGivesShortCode` | appinventario/app.py:108 | the reading "1718031234.1" gives the eleven-character code "17180312341" |
| `Barcodes.Issue` | appinventario/app.py:102-118 | the issued code is the code of the first reading whose code is not reserved (every earlier reading's code is reserved); it is added to the reservation set and nothing else is; None exactly when every reading's code is reserved (the loop never ends) |
| `Barcodes.FirstFresh` | appinventario/app.py:106-115 | the first attempt, from a given reading on, whose code is not reserved; every earlier attempt's code is reserved; None exactly when all remaining readings give reserved codes |
| `Barcodes.IssueFromNone` | appinventario/app.py:102-118 | an issuing call that starts at reading `used` finds no fresh code exactly when the scan from `used` finds none |
| `Barcodes.IssueCodes` | appinventario/app.py:592-602 | codes issued one after another are pairwise distinct, none was reserved before, and afterwards the reservation set is the old one plus exactly these codes; each code is the code of one of the readings consumed (dots removed, last twelve characters), and every consumed reading's code ends up reserved; all `cantidad` codes are issued (none for a negative `cantidad`), and a batch stops short only when every remaining reading gives a reserved code, so the next issuing call would loop forever |
| `Store.EmptyWf` | appinventario/app.py:30-87 | a new database satisfies the invariant |
| `Store.UnreservedIsUnused` | appinventario/app.py:110-114 | in a well-formed store, an unreserved code belongs to no item |
| `Store.SeedAll` | appinventario/app.py:92-96 | the seed inserts in order change only the group table and its counter, and take at most one id each |
| `Store.InitDb` | appinventario/app.py:89-99 | `init_db` on an existing database changes only the group table and its counter, taking at most five ids |
| `Store.SeedGroup` | appinventario/app.py:92-96 | a seed insert leaves a group of that name; when the name exists it changes nothing (the IntegrityError is swallowed), otherwise the group takes the next id |
| `Store.SeedAllKeepsGroups` | appinventario/app.py:89-96 | seeding keeps every existing group and id, leaves every seed name present, and touches only the group table |
| `Store.SeedAllAddsOnlySeeds` | appinventario/app.py:92-96 | after seeding every group is either an old group, unchanged, or one of the seeds, and every new id is one the counter handed out during seeding |
| `Store.InitDbAddsOnlySeeds` | appinventario/app.py:89-96 | `init_db` adds only default groups (EC, GL, RH, PCG, ALMACEN), under at most five fresh ids at and after the old counter |
| `Store.InitDbSeedsAllGroups` | appinventario/app.py:89-96 | after `init_db` the groups EC, GL, RH, PCG and ALMACEN exist |
| `Store.SeedAllPresentIsNoop` | appinventario/app.py:92-96 | seeding names that all exist changes nothing |
| `Store.InitDbIdempotent` | appinventario/app.py:30-99 | running `init_db` a second time changes nothing |
| `Store.SeedAllWf` | appinventario/app.py:92-96 | seeding keeps the store well formed |
| `Store.InitDbWf` | appinventario/app.py:30-99 | `init_db` keeps the store well formed |
| `Store.InitDbOnEmpty` | appinventario/app.py:89-96 | on a new database the five default groups get ids 1 to 5 in list order |
| `Items.ValidateDevice` | appinventario/app.py:195-241 | device validation fails before any write; it answers a bad request exactly when the form has no `vpn` |
| `Items.InsertFailure` | appinventario/app.py:266-336 | an insert failure is never one of the validation failures; a missing key wins and is the first key the insert reads that the form lacks (in `request.form[...]` order); with every key present a non-numeric amount is next; only then a store fault; the insert succeeds exactly when no write fault occurs and, for a known `tipo`, every key is present and the amount is numeric |
| `Items.NewDevice` | appinventario/app.py:270-287 | the device row written by the insert is in the request's group, carries the issued code, the photo's URL and today's date |
| `Items.NewDeviceColumns` | appinventario/app.py:270-287 | the required columns hold the submitted fields, the optional ones the field or "" when absent, and the channel is "" for a device without VPN and the submitted channel otherwise |
| `Items.InsertRowWf` | appinventario/app.py:266-314 | inserting a row whose code is reserved and carried by no item keeps the store well formed |
| `Items.InsertRow` | appinventario/app.py:266-314 | the insert changes neither the groups nor the reservation set |
| `Items.Precheck` | appinventario/app.py:186-241 | every failure found before a code is issued is one that leaves the store unchanged |
| `Items.Register` | appinventario/app.py:243-358 | after validation: the loop hangs, with no change, exactly when every clock reading gives a reserved code; otherwise the code of the first fresh reading is the one reported and reserved; a failing insert is reported as that failure, with tables unchanged and the first fresh reading's code left reserved; with a sound insert the item is created exactly when its group exists |
| `Items.Create` | appinventario/app.py:180-358 | a validation failure is reported as found and changes nothing; the call hangs exactly when validation passes and no clock reading gives a free code; a later failure reserves exactly the first fresh reading's code and changes no table; success reports a fresh code and adds exactly it to the reservation set; the groups never change |
| `Items.CreateSucceeds` | appinventario/app.py:243-358 | a request that passes validation, meets a fresh clock reading, has a sound insert and names an existing group is created, with the first fresh reading's code and that group's name |
| `Items.CreateReportsFirstEmptyField` | appinventario/app.py:195-212 | a device form fails on the first empty field among responsable, marca, vpn, room, pais, costo, then canal_vpn when there is a VPN and the key is sent, and nothing changes; with all of them filled no field is reported |
| `Items.CreateRejectsTakenPair` | appinventario/app.py:214-236 | once the fields pass, the device is refused for its pair exactly when it has a VPN, a non-empty channel and some device holds the pair; the refusal changes nothing |
| `Items.CreateNoVpnNeverConflicts` | appinventario/app.py:220 | a device without VPN is never refused for its pair on create |
| `Items.CreatedDeviceFilled` | appinventario/app.py:195-212 | a device is created only when its six base fields are filled |
| `Items.CreatedDeviceRow` | appinventario/app.py:270-287 | a created device is one new row at the old counter holding the issued code, the group, today's date, the photo's URL, `responsable`, `marca`, `vpn`, `room`, `pais` and `costo` as submitted, and `cuentas_tiktok`, `apple_id` and `comentarios` or "" when absent; its channel is empty when it has no VPN; nothing else but the reservation set changes |
| `Items.CreatedIsInsert` | appinventario/app.py:243-358 | a successful create had a `tipo` and a group id naming an existing group, whose name it reports; its store is the insert of the row, with the fresh code reserved |
| `Items.CreateWf` | appinventario/app.py:243-315 | creating keeps the store well formed (its new code was free, so codes stay unique and reserved) |
| `Items.EditedDevice` | appinventario/app.py:446-453 | after the UPDATE the device row shows the edit form's fields and its group is the submitted `grupo_id`; its code and date added are kept |
| `Items.ResaveDeviceKeepsRow` | appinventario/app.py:446-453 | saving an edit form that shows the row's current values, with the same group, leaves the row as it was |
| `Items.Update` | appinventario/app.py:446-471 | an UPDATE by id keeps the ids, rewrites only row `id`, and is a no-op for a missing id |
| `Items.Commit` | appinventario/app.py:446-480 | the edit is committed exactly when every key the UPDATE reads is present and the store raises nothing; a refused edit changes nothing; an accepted one commits the edited store |
| `Items.Edit` | appinventario/app.py:419-480 | a refused edit changes nothing; no edit touches the reservation set or the groups |
| `Items.EditRejectsPairOfOther` | appinventario/app.py:428-443 | a device edit is refused for its pair exactly when a device with another id holds the same (vpn, canal_vpn), with no exemption for "No tiene" |
| `Items.EditKeepsOwnPair` | appinventario/app.py:428-480 | re-saving a device with its own pair, held by no other device, is not refused for the pair, and is committed when the form has every key the UPDATE reads and the store raises nothing |
| `Items.EditDeviceAccepted` | appinventario/app.py:428-480 | a device edit is committed exactly when no other device holds the submitted (vpn, canal_vpn), every key the UPDATE reads is present and the store raises nothing |
| `Items.EditDeviceTouchesOnlyItsRow` | appinventario/app.py:446-455 | an accepted device edit changes only row `id` of the device table and keeps its code and date added |
| `Items.EditSaleTouchesOnlyItsRow` | appinventario/app.py:457-463 | an accepted sale-product edit changes only row `id` of its table and keeps its code and date added |
| `Items.EditMaterialTouchesOnlyItsRow` | appinventario/app.py:465-470 | an accepted material edit changes only row `id` of its table and keeps its code and date added |
| `Items.EditUnknownKindIsNoop` | appinventario/app.py:472-475 | an edit with an unknown `tipo` changes nothing |
| `Items.EditWf` | appinventario/app.py:419-480 | editing keeps the store well formed |
| `Items.NoVpnEditRejectedAfterTwoCreates` | appinventario/app.py:428-443 | after two devices without VPN are created, re-saving the first one with ("No tiene", "") is refused because the other device holds that pair |
| `Items.Release` | appinventario/app.py:512-516 | freeing a non-empty code removes exactly it from the reservation set; an empty code, or a failed reservation DELETE, frees nothing |
| `Items.Delete` | appinventario/app.py:482-545 | a failed delete changes nothing; a delete only shrinks the reservation set and never changes the groups or the counters |
| `Items.DeleteDeviceRemovesRowAndCode` | appinventario/app.py:489-536 | deleting an existing device removes that row and its code and leaves every other row and code |
| `Items.DeleteSaleRemovesRowAndCode` | appinventario/app.py:491-536 | deleting an existing sale product removes that row and its code and leaves every other row and code |
| `Items.DeleteMaterialRemovesRowAndCode` | appinventario/app.py:493-536 | deleting an existing material removes that row and its code and leaves every other row and code |
| `Items.DeleteMissingIsNoop` | appinventario/app.py:496-536 | deleting an id that the table named by `tipo` lacks reports success and changes nothing, whatever the other tables hold; so does an unknown `tipo` |
| `Items.DeleteWf` | appinventario/app.py:482-536 | deleting keeps the store well formed |
| `Items.DeleteUndoesDeviceInsert` | appinventario/app.py:489-536 | deleting the device just inserted with a fresh code gives back the store before the insert, counter aside |
| `Items.CreateThenDeleteDevice` | appinventario/app.py:482-536 | creating a device and deleting it restores the tables and the reservation set; only the device counter has moved on |
| `Queries.FirstKey` | appinventario/app.py:396-405 | the lowest id in range whose row matches (the row read first), with no match below it; None exactly when no row in range matches |
| `Queries.FirstKeyUnique` | appinventario/app.py:396-405 | when exactly one row matches, it is the one returned |
| `Queries.Search` | appinventario/app.py:362-415 | a found item is a row of the table named by the result, carries the searched code, belongs to an existing group, and is reported with that group's name |
| `Queries.SearchPrecedence` | appinventario/app.py:396-405 | a device match wins, then a sale-product match, then a material match; not found exactly when no table has a match joined to a group |
| `Queries.SearchFindsNewDevice` | appinventario/app.py:370-405 | a device inserted with a fresh code in an existing group is what a search for that code returns, with its group's name |
| `Queries.SearchFindsNewSale` | appinventario/app.py:377-405 | a sale product inserted with a fresh code in an existing group is what a search for that code returns |
| `Queries.SearchFindsNewMaterial` | appinventario/app.py:384-405 | a material inserted with a fresh code in an existing group is what a search for that code returns |
| `Queries.SearchMissesRowlessCode` | appinventario/app.py:396-415 | a code that is reserved but carried by no row is not found |
| `Queries.SearchFindsInserted` | appinventario/app.py:370-415 | after the insert of any kind with a fresh code, a search for it finds the new row of that kind; after an unknown kind it finds nothing |
| `Queries.CreateThenSearch` | appinventario/app.py:370-405 | searching for the code a create reported finds the new row, of the created kind, in the reported group; for an unknown `tipo` it finds nothing |
| `Queries.DeleteThenSearch` | appinventario/app.py:370-405 | after a device is deleted, searching for its code finds nothing |
| `Queries.DeleteSaleThenSearch` | appinventario/app.py:377-405 | after a sale product is deleted, searching for its code finds nothing |
| `Queries.DeleteMaterialThenSearch` | appinventario/app.py:384-405 | after a material is deleted, searching for its code finds nothing |
| `Queries.ListByGroup` | appinventario/app.py:151-178 | a listing is for a group of the requested name and lists exactly the devices, sale products and materials joined to a group of that name |
| `Queries.ListByGroupNotFound` | appinventario/app.py:157-161 | the page is not found exactly when no group has the name |
| `Queries.ListByGroupIsById` | appinventario/app.py:164-170 | with unique names, the listing holds exactly the items whose group id is the listed group's id |
| `Queries.EmptyGroupListsNothing` | appinventario/app.py:157-178 | an existing group with no items lists three empty collections |
| `Queries.PlanExport` | appinventario/app.py:547-588 | the devices, sale-products and material sheets are written exactly when `tipo` is "todos" or "dispositivos", "productos_venta", "material_general" respectively; no sheet twice; grupo "todos" (the default) means no group filter, otherwise the filter is the group |
| `Queries.ExportFilename` | appinventario/app.py:588 | the file is `inventario_completo.xlsx` for "todos" or no group, and `inventario_{grupo}.xlsx` otherwise |
| `Queries.ExportSheetOrder` | appinventario/app.py:555-576 | the sheets come in the order devices, sale products, material |
| `Queries.ExportSheetNames` | appinventario/app.py:555-585 | no two sheets of an export share a name, and a complete export writes the tabs "Dispositivos", "Productos de Venta", "Material General" in that order |
| `Queries.DeviceRows` | appinventario/app.py:557-562 | the device sheet holds exactly the devices joined to a group that passes the filter, each with its group's name, which is the filtered name when there is a filter |
| `Queries.SaleRows` | appinventario/app.py:564-569 | the sale-product sheet holds exactly the sale products joined to a group that passes the filter, each with its group's name, which is the filtered name when there is a filter |
| `Queries.MaterialRows` | appinventario/app.py:571-576 | the material sheet holds exactly the materials joined to a group that passes the filter, each with its group's name, which is the filtered name when there is a filter |
| `Queries.ExportAgreesWithListing` | appinventario/app.py:557-576 | exporting one group writes the devices, sale products and materials its page lists, each row the listed item with the group's name; an unknown group exports empty sheets where its page is not found |
| `Client.ClientFields` | appinventario/static/js/script.js:185-214 | a device requires the six base fields, then canal_vpn exactly when the VPN is not "No tiene" (a missing `vpn` included) |
| `Client.ValidateForm` | appinventario/static/js/script.js:180-217 | a reported field is empty or missing in a form whose `tipo` is one of the three kinds; any other `tipo` gives no error |
| `Client.MessageIdentifiesError` | appinventario/static/js/script.js:193-211 | the alert quotes the empty field, and two alerts with the same text are for the same field and the same kind of item |
| `Client.ClientAcceptsIffFilled` | appinventario/static/js/script.js:180-217 | the browser accepts a form exactly when every field required for its kind is filled |
| `Client.ClientReportsFirstMissing` | appinventario/static/js/script.js:193-197 | the reported field is the first required field, in list order, that is not filled |
| `Client.ChannelRequiredUnlessNoVpn` | appinventario/static/js/script.js:185-197 | with the base fields filled, a device form passes exactly when its VPN is "No tiene" or its channel is filled |
| `Client.ClientAcceptedDevicePassesServerFields` | appinventario/static/js/script.js:186-197 | a device form the browser accepts passes the server's required-field loop and reads no missing key at insert; the server can refuse it only for its pair |
| `Client.ClientAcceptedItemHasInsertKeys` | appinventario/static/js/script.js:199-214 | a sale-product or material form the browser accepts carries every key the server's insert reads |
| `Client.ClientStricterOnMissingChannel` | appinventario/static/js/script.js:186-197 | a device with a VPN and no `canal_vpn` key passes the server's validation and is refused by the browser for canal_vpn |
| `Client.UpdateChannelField` | appinventario/static/js/script.js:42-53 | for "No tiene" the input is disabled, not required, emptied, with placeholder "No aplica"; otherwise it is enabled, required, keeps its value, with placeholder "Canal VPN" |
| `Client.UpdateChannelFieldIdempotent` | appinventario/static/js/script.js:42-53 | updating twice for the same VPN equals updating once |
| `Client.ClearedChannelStaysEmpty` | appinventario/static/js/script.js:43-51 | after "No tiene" clears the channel, choosing a VPN again re-enables it empty |
| `Client.ChannelFieldAgreesWithValidation` | appinventario/static/js/script.js:42-53 | the input is marked required exactly when `validarFormulario` requires canal_vpn for the form it submits |

## Left out

- HTTP routing, templates, JSON and status codes. A handler's answer is an
  outcome datatype. An uncaught KeyError (Flask's 400) is `BadRequest`, and
  an uncaught exception after commit is `Crashes`.
- SQLite connections, SQL text and commits. Exceptions are one abstract
  fault per operation, at the point where it matters. The 'locked' message
  test is the `Busy` versus `DbError` distinction.
- Spreadsheet serialisation with pandas and xlsxwriter. The model covers
  which sheets are written, their rows and the file name, not the file
  itself.
- A store fault inside `generar_codigo_barras` is not modelled, in create
  and in the batch alike. Its SELECT and INSERT on `codigos_barras` run
  outside every `try`, so such a fault ends the request with an HTTP 500
  and nothing committed; the model's issuing never fails.
- Barcode images and photo files: rendering, saving, `secure_filename`,
  uuid names and removal. These are filesystem side effects. The photo's URL
  is a parameter of create.
- The wall clock and today's date are parameters. The clock is the sequence
  of readings the retry loop sees.
- `float()` of amounts is an oracle predicate. Amounts are stored as their
  text, and the REAL column type is not modelled.
- `grupo_id` is the text of a form field, stored with SQLite's integer
  affinity. The model takes it already parsed (None when absent).
  `int(cantidad)` is likewise taken as an integer, and an absent
  `cantidad` (which `request.form.get` turns into 1) is passed as 1.
- Lower-casing is ASCII only. Python's `str.lower` on other letters is not
  modelled.
- The SQLite schema's UNIQUE constraint on item barcodes is not checked at
  insert. The model instead proves that every inserted code was unreserved
  and so unused (`Items.CreateWf`).
- `Queries.FirstKey` assumes the search reads the lowest matching id first
  (SQLite's rowid order). Under `Store.Wf` at most one row matches, so the
  order does not matter there.
- `Items.Edit` does not check a `grupo_id` that names no group. The row
  simply stops joining, as in the code.
- `Items.Create` does not state where the reported group name comes from.
  `Items.CreatedIsInsert` and `Queries.CreateThenSearch` relate it to the
  store.
- DOM show/hide, drag-and-drop, fetch handlers and previews in the browser
  script, and the camera script, are user-interface glue.
- Server start-up (SSL and host) is not modelled.

=== FILE: barcodes.dfy ===
/**
 * Barcode issuing (`generar_codigo_barras`, `generar_codigos_barras`).
 * A candidate code is derived from a clock reading, the text of
 * `datetime.now().timestamp()`: its dots are removed and its last twelve
 * characters kept. The clock is a parameter: the sequence of readings the
 * issuing loop will see, one per attempt.
 */
module Barcodes {
  import opened Wrappers

  const CodeLength: nat := 12

  /** `text.replace('.', '')`. */
  function StripDots(text: string): (r: string)
    ensures '.' !in r
    ensures |r| <= |text|
    ensures '.' !in text ==> r == text
  {
    if |text| == 0 then ""
    else (if text[0] == '.' then "" else [text[0]]) + StripDots(text[1..])
  }

  /** `text[-n:]`: the last n characters, or all of them when there are fewer. */
  function LastN(text: string, n: nat): (r: string)
    ensures |r| == if |text| <= n then |text| else n
    ensures text == text[..|text| - |r|] + r
  {
    if |text| <= n then text else text[|text| - n..]
  }

  /** The candidate code of one clock reading. */
  function CodeOf(reading: string): (c: string)
    ensures '.' !in c
    ensures |c| <= CodeLength
    ensures |StripDots(reading)| >= CodeLength ==> |c| == CodeLength
  {
    LastN(StripDots(reading), CodeLength)
  }

  /** Removing the dots of `a.b` when neither part has one. */
  lemma {:induction false} StripOneDot(a: string, b: string)
    requires '.' !in a && '.' !in b
    ensures StripDots(a + "." + b) == a + b
    decreases |a|
  {
    if |a| == 0 {
      assert a + "." + b == "." + b;
      assert ("." + b)[1..] == b;
    } else {
      assert (a + "." + b)[1..] == a[1..] + "." + b;
      StripOneDot(a[1..], b);
      assert [a[0]] + (a[1..] + b) == a + b;
    }
  }

  /** A code can be shorter than twelve characters: Python's `str` of a
      float drops trailing zeros, so a reading whose fraction is `.1` leaves
      only eleven digits. */
  lemma ShortReadingGivesShortCode()
    ensures CodeOf("1718031234.1") == "17180312341"
  {
    StripOneDot("1718031234", "1");
    assert "1718031234" + "." + "1" == "1718031234.1";
    assert "1718031234" + "1" == "17180312341";
  }

  /** For a reading `secs.frac` the code is the last twelve characters of
      the digits with the dot removed, or all of them when there are fewer. */
  lemma TimestampCode(secs: string, frac: string)
    requires '.' !in secs && '.' !in frac
    ensures |secs| + |frac| >= CodeLength ==>
              CodeOf(secs + "." + frac) == (secs + frac)[|secs| + |frac| - CodeLength..]
    ensures |secs| + |frac| < CodeLength ==> CodeOf(secs + "." + frac) == secs + frac
  {
    StripOneDot(secs, frac);
  }

  /** The outcome of one issuing call: the code, the reservation set with
      the code added, and the readings left for later calls. */
  datatype Issued = Issued(code: string, reserved: set<string>, clock: seq<string>)

  /** The position of the first reading from `lo` on whose code is not
      reserved: the attempt at which the retry loop stops. */
  function FirstFresh(reserved: set<string>, clock: seq<string>, lo: nat): (r: Option<nat>)
    ensures r.Some? ==> lo <= r.value < |clock| && CodeOf(clock[r.value]) !in reserved
    ensures r.Some? ==> forall j :: lo <= j < r.value ==> CodeOf(clock[j]) in reserved
    ensures r.None? <==> forall i :: lo <= i < |clock| ==> CodeOf(clock[i]) in reserved
    decreases |clock| - lo
  {
    if lo >= |clock| then None
    else if CodeOf(clock[lo]) !in reserved then Some(lo)
    else FirstFresh(reserved, clock, lo + 1)
  }

  /** The retry loop: the first reading whose code is not reserved wins and
      is reserved. None when no reading of `clock` gives a free code, where
      the `while True` of `generar_codigo_barras` never ends. */
  function Issue(reserved: set<string>, clock: seq<string>): (r: Option<Issued>)
    ensures r.Some? ==> r.value.code !in reserved && r.value.reserved == reserved + {r.value.code}
    ensures r.Some? ==> exists i :: 0 <= i < |clock| && CodeOf(clock[i]) == r.value.code
                          && r.value.clock == clock[i + 1..]
                          && forall j :: 0 <= j < i ==> CodeOf(clock[j]) in reserved
    ensures r.None? <==> forall i :: 0 <= i < |clock| ==> CodeOf(clock[i]) in reserved
  {
    match FirstFresh(reserved, clock, 0)
    case None => None
    case Some(i) => Some(Issued(CodeOf(clock[i]), reserved + {CodeOf(clock[i])}, clock[i + 1..]))
  }

  /** `code` is the candidate code of one of the readings. */
  predicate FromReading(code: string, readings: seq<string>) {
    exists j :: 0 <= j < |readings| && CodeOf(readings[j]) == code
  }

  /** Codes each found at a position before `used` are drawn from the
      first `used` readings. */
  lemma DrawnFromReadings(codes: seq<string>, clock: seq<string>, used: nat, at: seq<nat>)
    requires used <= |clock| && |at| == |codes|
    requires forall i :: 0 <= i < |codes| ==> at[i] < used && CodeOf(clock[at[i]]) == codes[i]
    ensures forall i :: 0 <= i < |codes| ==> FromReading(codes[i], clock[..used])
  {
    forall i | 0 <= i < |codes| ensures FromReading(codes[i], clock[..used]) {
      assert clock[..used][at[i]] == clock[at[i]];
    }
  }

  /** What holds of a batch after each issued code: `from[i]` is the
      reading code `i` came from, codes are distinct and were free, the
      reservations are the old ones plus the codes, and every consumed
      reading gives a reserved code. */
  ghost predicate Batch(reserved: set<string>, clock: seq<string>, codes: seq<string>, from: seq<nat>,
                        reserved': set<string>, used: nat)
  {
    BatchCodes(reserved, clock, codes, from, used) && BatchReserved(reserved, clock, codes, reserved', used)
  }

  ghost predicate BatchCodes(reserved: set<string>, clock: seq<string>, codes: seq<string>, from: seq<nat>, used: nat) {
    && used <= |clock| && |from| == |codes|
    && (forall i :: 0 <= i < |codes| ==> from[i] < used && CodeOf(clock[from[i]]) == codes[i])
    && (forall i, j :: 0 <= i < j < |codes| ==> codes[i] != codes[j])
    && (forall i :: 0 <= i < |codes| ==> codes[i] !in reserved)
  }

  ghost predicate BatchReserved(reserved: set<string>, clock: seq<string>, codes: seq<string>,
                                reserved': set<string>, used: nat)
  {
    && used <= |clock|
    && (forall c :: c in reserved' <==> c in reserved || c in codes)
    && (forall j :: 0 <= j < used ==> CodeOf(clock[j]) in reserved')
  }

  /** Issuing the next code, from the first fresh reading after `used`,
      keeps the batch invariant. */
  lemma BatchStep(reserved: set<string>, clock: seq<string>, codes: seq<string>, from: seq<nat>,
                  reserved': set<string>, used: nat, at: nat)
    requires Batch(reserved, clock, codes, from, reserved', used)
    requires FirstFresh(reserved', clock, used) == Some(at)
    ensures Batch(reserved, clock, codes + [CodeOf(clock[at])], from + [at],
                  reserved' + {CodeOf(clock[at])}, at + 1)
  {
    assert CodeOf(clock[at]) !in reserved';
    BatchCodesStep(reserved, clock, codes, from, used, at);
    BatchReservedStep(reserved, clock, codes, reserved', used, at);
  }

  lemma BatchCodesStep(reserved: set<string>, clock: seq<string>, codes: seq<string>, from: seq<nat>,
                       used: nat, at: nat)
    requires BatchCodes(reserved, clock, codes, from, used)
    requires used <= at < |clock|
    requires CodeOf(clock[at]) !in reserved && CodeOf(clock[at]) !in codes
    ensures BatchCodes(reserved, clock, codes + [CodeOf(clock[at])], from + [at], at + 1)
  {
    var code := CodeOf(clock[at]);
    var codes' := codes + [code];
    var from' := from + [at];
    assert forall i :: 0 <= i < |codes| ==> codes'[i] == codes[i] && from'[i] == from[i];
    assert codes'[|codes|] == code && from'[|codes|] == at;
  }

  lemma BatchReservedStep(reserved: set<string>, clock: seq<string>, codes: seq<string>,
                          reserved': set<string>, used: nat, at: nat)
    requires BatchReserved(reserved, clock, codes, reserved', used)
    requires FirstFresh(reserved', clock, used) == Some(at)
    ensures BatchReserved(reserved, clock, codes + [CodeOf(clock[at])], reserved' + {CodeOf(clock[at])}, at + 1)
  {
    var code := CodeOf(clock[at]);
    var codes' := codes + [code];
    assert forall c :: c in codes' <==> c in codes || c == code;
    ConsumedReserved(reserved', clock, used, at);
  }

  /** After a fresh reading is found at `at` and its code reserved, every
      reading up to and including `at` gives a reserved code. */
  lemma ConsumedReserved(reserved: set<string>, clock: seq<string>, used: nat, at: nat)
    requires used <= |clock|
    requires forall j :: 0 <= j < used ==> CodeOf(clock[j]) in reserved
    requires FirstFresh(reserved, clock, used) == Some(at)
    ensures forall j :: 0 <= j < at + 1 ==> CodeOf(clock[j]) in reserved + {CodeOf(clock[at])}
  {
  }

  /** An issuing call that starts at reading `used` sees no fresh reading
      exactly when the scan from `used` finds none. */
  lemma IssueFromNone(reserved: set<string>, clock: seq<string>, used: nat)
    requires used <= |clock|
    ensures Issue(reserved, clock[used..]).None? <==> FirstFresh(reserved, clock, used).None?
  {
    assert forall i :: 0 <= i < |clock[used..]| ==> clock[used..][i] == clock[used + i];
  }

  /** `generar_codigos_barras`: `cantidad` codes issued one after another,
      each call seeing the reservations of the previous ones. `complete` is
      false when the clock ran out of fresh readings, where
      `generar_codigo_barras` loops forever; the codes issued until then stay reserved. `used` is how many
      readings the batch consumed. */
  method IssueCodes(reserved: set<string>, clock: seq<string>, cantidad: int)
    returns (codes: seq<string>, reserved': set<string>, complete: bool, used: nat)
    ensures complete ==> |codes| == if cantidad < 0 then 0 else cantidad
    ensures !complete ==> |codes| < cantidad
    ensures used <= |clock|
    ensures !complete ==> Issue(reserved', clock[used..]).None?
    ensures forall j :: 0 <= j < used ==> CodeOf(clock[j]) in reserved'
    ensures forall i :: 0 <= i < |codes| ==> FromReading(codes[i], clock[..used])
    ensures forall i, j :: 0 <= i < j < |codes| ==> codes[i] != codes[j]
    ensures forall i :: 0 <= i < |codes| ==> codes[i] !in reserved
    ensures forall c :: c in reserved' <==> c in reserved || c in codes
  {
    codes := [];
    reserved' := reserved;
    complete := true;
    used := 0;
    ghost var from: seq<nat> := [];
    while |codes| < cantidad
      invariant |codes| <= if cantidad < 0 then 0 else cantidad
      invariant Batch(reserved, clock, codes, from, reserved', used)
      decreases cantidad - |codes|
    {
      var at := FirstFresh(reserved', clock, used);
      if at.None? {
        IssueFromNone(reserved', clock, used);
        complete := false;
        break;
      }
      var code := CodeOf(clock[at.value]);
      BatchStep(reserved, clock, codes, from, reserved', used, at.value);
      codes := codes + [code];
      from := from + [at.value];
      reserved' := reserved' + {code};
      used := at.value + 1;
    }
    DrawnFromReadings(codes, clock, used, from);
  }
}

=== FILE: client.dfy ===
/**
 * The browser side of the add-item form: the required-field check run before
 * the form is posted (`validarFormulario`) and the VPN-channel input that is
 * switched off for a device without VPN (`actualizarEstadoCanalVPN`).
 */
module Client {
  import opened Wrappers
  import opened Forms
  import opened Store
  import Items

  /** The first required field found empty, and the kind of item the form was for. */
  datatype ClientError = ClientError(field: string, kind: Kind) {
    /** The text shown above the form. */
    function Message(): string {
      "El campo \"" + field + "\" es requerido para " + KindWord(kind)
    }
  }

  /** How the alert names each kind of item. */
  function KindWord(kind: Kind): string {
    match kind
    case DeviceKind => "dispositivos"
    case SaleKind => "productos de venta"
    case MaterialKind => "material general"
  }

  /** The alert quotes the empty field, and no two errors share a text: the
      field and the kind can both be read back from the message. */
  lemma MessageIdentifiesError(e1: ClientError, e2: ClientError)
    ensures e1.Message()[10..10 + |e1.field|] == e1.field
    ensures e1.Message() == e2.Message() ==> e1 == e2
  {
    var pre := "El campo \"";
    var mid := "\" es requerido para ";
    var m1 := e1.Message();
    assert m1 == pre + e1.field + mid + KindWord(e1.kind);
    assert m1[10..10 + |e1.field|] == e1.field;
    if m1 == e2.Message() {
      var w1, w2 := KindWord(e1.kind), KindWord(e2.kind);
      assert m1 == pre + e1.field + mid + w1;
      assert m1 == pre + e2.field + mid + w2;
      assert m1[|m1| - 1] == w1[|w1| - 1];
      assert m1[|m1| - 1] == w2[|w2| - 1];
      assert e1.kind == e2.kind;
      assert |e1.field| == |e2.field|;
      assert m1[10..10 + |e2.field|] == e2.field;
    }
  }

  /** The kind the form's `tipo` names; None when it is absent or unknown. */
  function FormKind(form: Form): Option<Kind> {
    if "tipo" in form then KindOf(form["tipo"]) else None
  }

  /** The fields the browser requires, in the order it checks them. The
      channel is required unless the VPN is exactly "No tiene"; a form
      without a `vpn` entry therefore requires it too. */
  function ClientFields(form: Form, kind: Kind): (fields: seq<string>)
    ensures kind == DeviceKind ==> Items.DeviceBaseFields <= fields
    ensures kind == DeviceKind ==> ("canal_vpn" in fields <==> Lookup(form, "vpn") != Some(NoVpn))
  {
    match kind
    case DeviceKind =>
      Items.DeviceBaseFields + (if Lookup(form, "vpn") != Some(NoVpn) then ["canal_vpn"] else [])
    case SaleKind => ["marca_venta", "descripcion_venta", "costo_venta"]
    case MaterialKind => ["nombre_material", "tipo_material", "precio_material", "room_material"]
  }

  /** `validarFormulario`: the first required field that is missing or
      empty, or None when there is none or the `tipo` is not one of the three. */
  function ValidateForm(form: Form): (r: Option<ClientError>)
    ensures r.Some? ==> FormKind(form) == Some(r.value.kind) && !Filled(form, r.value.field)
    ensures FormKind(form).None? ==> r.None?
  {
    match FormKind(form)
    case None => None
    case Some(kind) =>
      var fields := ClientFields(form, kind);
      match FirstEmpty(form, fields)
      case None => None
      case Some(i) => Some(ClientError(fields[i], kind))
  }

  /** The browser lets a form through exactly when every field required for
      its kind is filled. */
  lemma ClientAcceptsIffFilled(form: Form, kind: Kind)
    requires FormKind(form) == Some(kind)
    ensures ValidateForm(form).None? <==>
              forall j :: 0 <= j < |ClientFields(form, kind)| ==> Filled(form, ClientFields(form, kind)[j])
  {
  }

  /** The reported field is the first empty one in list order. */
  lemma ClientReportsFirstMissing(form: Form)
    requires ValidateForm(form).Some?
    ensures var e := ValidateForm(form).value; var fields := ClientFields(form, e.kind);
            exists i :: 0 <= i < |fields| && fields[i] == e.field
              && forall j :: 0 <= j < i ==> Filled(form, fields[j])
  {
    var kind := FormKind(form).value;
    var i := FirstEmpty(form, ClientFields(form, kind)).value;
    assert ClientFields(form, kind)[i] == ValidateForm(form).value.field;
  }

  /** For a device whose six base fields are filled, the channel decides:
      the form passes exactly when there is no VPN or the channel is filled. */
  lemma ChannelRequiredUnlessNoVpn(form: Form)
    requires FormKind(form) == Some(DeviceKind) && "vpn" in form
    requires forall j :: 0 <= j < |Items.DeviceBaseFields| ==> Filled(form, Items.DeviceBaseFields[j])
    ensures ValidateForm(form).None? <==> form["vpn"] == NoVpn || Filled(form, "canal_vpn")
  {
    assert Filled(form, Items.DeviceBaseFields[2]);
    var fields := ClientFields(form, DeviceKind);
    if form["vpn"] != NoVpn && !Filled(form, "canal_vpn") {
      assert fields[|Items.DeviceBaseFields|] == "canal_vpn";
    }
  }

  /** A device form the browser accepts passes the server's field checks:
      the server can then only refuse it for a taken (vpn, canal_vpn) pair or
      a failed lookup, and no key its insert reads is missing. */
  lemma ClientAcceptedDevicePassesServerFields(s: Store, form: Form, env: Items.CreateEnv)
    requires FormKind(form) == Some(DeviceKind)
    requires ValidateForm(form).None?
    ensures var v := Items.ValidateDevice(s, form, env.lookupFault);
            v.None? || v.value.VpnInUse? || v.value.LookupFailed?
    ensures !(Items.InsertFailure(Some(DeviceKind), form, env).Some?
              && Items.InsertFailure(Some(DeviceKind), form, env).value.MissingKey?)
  {
    var fields := ClientFields(form, DeviceKind);
    assert Filled(form, fields[2]);
    var server := Items.ServerDeviceFields(form);
    forall j | 0 <= j < |server| ensures Filled(form, server[j]) {
      if j < |Items.DeviceBaseFields| {
        assert server[j] == fields[j];
      } else {
        assert server[j] == "canal_vpn" == fields[|Items.DeviceBaseFields|];
      }
    }
    assert Filled(form, fields[0]) && Filled(form, fields[1]) && Filled(form, fields[3])
        && Filled(form, fields[4]) && Filled(form, fields[5]);
  }

  /** The same for sale products and general material: every key the insert
      reads is present once the browser has accepted the form. */
  lemma ClientAcceptedItemHasInsertKeys(form: Form, kind: Kind, env: Items.CreateEnv)
    requires FormKind(form) == Some(kind) && kind != DeviceKind
    requires ValidateForm(form).None?
    ensures !(Items.InsertFailure(Some(kind), form, env).Some?
              && Items.InsertFailure(Some(kind), form, env).value.MissingKey?)
  {
    var fields := ClientFields(form, kind);
    var keys := Items.InsertKeys(kind);
    forall j | 0 <= j < |keys| ensures keys[j] in form {
      assert keys[j] in fields;
    }
  }

  /** The browser is stricter than the server: a device with a VPN whose
      form carries no `canal_vpn` at all passes the server's validation but
      not the browser's. */
  lemma ClientStricterOnMissingChannel(s: Store, form: Form, fault: Option<Items.StoreError>)
    requires FormKind(form) == Some(DeviceKind) && "vpn" in form
    requires forall j :: 0 <= j < |Items.DeviceBaseFields| ==> Filled(form, Items.DeviceBaseFields[j])
    requires form["vpn"] != NoVpn && "canal_vpn" !in form
    ensures Items.ValidateDevice(s, form, fault).None?
    ensures ValidateForm(form) == Some(ClientError("canal_vpn", DeviceKind))
  {
    assert Filled(form, Items.DeviceBaseFields[2]);
    assert Items.ServerDeviceFields(form) == Items.DeviceBaseFields;
    var fields := ClientFields(form, DeviceKind);
    assert fields[|Items.DeviceBaseFields|] == "canal_vpn";
  }

  // ===================== the channel input =====================

  /** The `canal_vpn` input's state. */
  datatype ChannelField = ChannelField(disabled: bool, required: bool, value: string, placeholder: string)

  /** `actualizarEstadoCanalVPN`, run with the VPN select's current value. */
  function UpdateChannelField(vpn: string, f: ChannelField): (r: ChannelField)
    ensures r.disabled <==> vpn == NoVpn
    ensures r.required <==> !r.disabled
    ensures r.disabled ==> r.value == "" && r.placeholder == "No aplica"
    ensures !r.disabled ==> r.value == f.value && r.placeholder == "Canal VPN"
  {
    if vpn == NoVpn then ChannelField(true, false, "", "No aplica")
    else f.(disabled := false, required := true, placeholder := "Canal VPN")
  }

  /** Running the update twice for the same VPN changes nothing more. */
  lemma UpdateChannelFieldIdempotent(vpn: string, f: ChannelField)
    ensures UpdateChannelField(vpn, UpdateChannelField(vpn, f)) == UpdateChannelField(vpn, f)
  {
  }

  /** Choosing "No tiene" clears the channel for good: switching back to a
      VPN re-enables the input but does not bring the old text back. */
  lemma ClearedChannelStaysEmpty(vpn: string, f: ChannelField)
    requires vpn != NoVpn
    ensures UpdateChannelField(vpn, UpdateChannelField(NoVpn, f)).value == ""
    ensures !UpdateChannelField(vpn, UpdateChannelField(NoVpn, f)).disabled
  {
  }

  /** A disabled input is left out of the submitted form data. */
  function Submit(form: Form, f: ChannelField): Form {
    if f.disabled then form - {"canal_vpn"} else form["canal_vpn" := f.value]
  }

  /** The input's `required` flag agrees with `validarFormulario`: after the
      update for the form's VPN, the channel is marked required exactly when
      the submitted form's check requires it. */
  lemma ChannelFieldAgreesWithValidation(form: Form, f: ChannelField)
    requires "vpn" in form
    ensures var g := UpdateChannelField(form["vpn"], f);
            g.required <==> "canal_vpn" in ClientFields(Submit(form, g), DeviceKind)
  {
    var g := UpdateChannelField(form["vpn"], f);
    assert Lookup(Submit(form, g), "vpn") == Some(form["vpn"]);
  }
}

=== FILE: forms.dfy ===
/**
 * Submitted forms as the server and the browser see them: a map from field
 * name to text. A key missing from the map is a field the request did not
 * carry; a key mapped to "" is a field submitted empty.
 */
module Forms {
  import opened Wrappers

  type Form = map<string, string>

  /** A field counts as filled when it is present and not empty (Python's
      `not valor` and JavaScript's `!formData.get(campo)` both treat the
      missing field and the empty string as missing). */
  predicate Filled(form: Form, key: string) {
    key in form && form[key] != ""
  }

  /** `form.get(key, default)`. */
  function Get(form: Form, key: string, default: string): string {
    if key in form then form[key] else default
  }

  /** `form.get(key)`, with None for an absent key. */
  function Lookup(form: Form, key: string): Option<string> {
    if key in form then Some(form[key]) else None
  }

  /** Index of the first key of `keys` that is not filled, scanning in list order. */
  function FirstEmpty(form: Form, keys: seq<string>): (r: Option<nat>)
    ensures r.Some? ==> r.value < |keys| && !Filled(form, keys[r.value])
    ensures r.Some? ==> forall j :: 0 <= j < r.value ==> Filled(form, keys[j])
    ensures r.None? <==> forall j :: 0 <= j < |keys| ==> Filled(form, keys[j])
  {
    if |keys| == 0 then None
    else if !Filled(form, keys[0]) then Some(0)
    else match FirstEmpty(form, keys[1..])
      case None => None
      case Some(i) => Some(i + 1)
  }

  /** Index of the first key of `keys` that the form does not carry at all
      (the first `request.form[key]` that would raise a KeyError). */
  function FirstAbsent(form: Form, keys: seq<string>): (r: Option<nat>)
    ensures r.Some? ==> r.value < |keys| && keys[r.value] !in form
    ensures r.Some? ==> forall j :: 0 <= j < r.value ==> keys[j] in form
    ensures r.None? <==> forall j :: 0 <= j < |keys| ==> keys[j] in form
  {
    if |keys| == 0 then None
    else if keys[0] !in form then Some(0)
    else match FirstAbsent(form, keys[1..])
      case None => None
      case Some(i) => Some(i + 1)
  }
}

=== FILE: items.dfy ===
/**
 * The item service: creating (`agregar_producto`), editing
 * (`editar_producto`) and deleting (`eliminar_producto`) items. Each
 * operation is a function from the store and the request to the outcome the
 * handler reports and the store it leaves behind. Clock readings, the date,
 * the uploaded photo's URL, numeric parsing and store faults are parameters.
 */
module Items {
  import opened Wrappers
  import opened Forms
  import opened Store
  import Barcodes

  /** How a store call can fail: an OperationalError mentioning 'locked'
      (reported as "database in use, try again"), any other
      OperationalError, or any other exception. */
  datatype StoreError = Busy | DbError | Unexpected

  datatype Failure =
    /** A key read with `request.form[...]` outside any `try`: Flask answers 400. */
    | BadRequest(key: string)
    /** A required field is missing or empty. */
    | Required(field: string)
    /** Another device already has this (vpn, canal_vpn) pair. */
    | VpnInUse(vpn: string, channel: string)
    /** The uniqueness query itself raised. */
    | LookupFailed(err: StoreError)
    /** A key read with `request.form[...]` inside a `try`: reported as an error. */
    | MissingKey(key: string)
    /** `float(...)` rejected the amount. */
    | NotNumeric(field: string)
    /** The write or the commit raised. */
    | StoreFailed(err: StoreError)
  {
    /** Failures detected before any code is issued or row written. */
    predicate BeforeAnyWrite() {
      BadRequest? || Required? || VpnInUse? || LookupFailed?
    }
  }

  /** An outcome together with the store after the operation. */
  datatype Step<R> = Step(result: R, store: Store)

  /** Some device has exactly this (vpn, canal_vpn) pair. */
  predicate PairTaken(devices: map<ItemId, Device>, vpn: string, channel: string) {
    exists k :: k in devices && devices[k].vpn == vpn && devices[k].vpnChannel == channel
  }

  /** Some device other than `id` has this pair (`... AND id != ?`). */
  predicate PairTakenByOther(devices: map<ItemId, Device>, id: ItemId, vpn: string, channel: string) {
    exists k :: k in devices && k != id && devices[k].vpn == vpn && devices[k].vpnChannel == channel
  }

  // ===================== create =====================

  /** The POSTed form and its `grupo_id` (None when the key is absent). */
  datatype CreateRequest = CreateRequest(form: Form, groupId: Option<GroupId>)

  /** What the create handler takes from outside the store: the clock
      readings the issuing loop sees, today's date, the URL the photo upload
      produced ("" when there was none or it failed), whether the uniqueness
      query or the insert raises, and which texts `float()` accepts. */
  datatype CreateEnv = CreateEnv(
    clock: seq<string>,
    today: string,
    photoUrl: string,
    lookupFault: Option<StoreError>,
    writeFault: Option<StoreError>,
    numeric: string -> bool)

  datatype CreateResult =
    | Created(barcode: string, tipo: string, groupName: string, photoUrl: string)
    | Rejected(failure: Failure)
    /** No clock reading gives a free code: the issuing loop never ends. */
    | Hangs
    /** The row was committed but no group has its id, so reading the group
        name raises outside any `try` (an HTTP 500). */
    | Crashes

  /** The six fields every device needs, in the order they are checked. */
  const DeviceBaseFields: seq<string> := ["responsable", "marca", "vpn", "room", "pais", "costo"]

  /** The server's required fields for a device: `canal_vpn` joins the list
      only when the device has a VPN and the form carries the field. */
  function ServerDeviceFields(form: Form): seq<string>
    requires "vpn" in form
  {
    DeviceBaseFields + (if form["vpn"] != NoVpn && "canal_vpn" in form then ["canal_vpn"] else [])
  }

  /** Device validation, before anything is written: `form['vpn']`, the
      required-field loop, then the (vpn, canal_vpn) uniqueness query, which
      runs only when the device has a VPN and a non-empty channel. */
  function ValidateDevice(s: Store, form: Form, lookupFault: Option<StoreError>): (r: Option<Failure>)
    ensures r.Some? ==> r.value.BeforeAnyWrite()
    ensures "vpn" !in form <==> r == Some(BadRequest("vpn"))
  {
    if "vpn" !in form then Some(BadRequest("vpn"))
    else
      var fields := ServerDeviceFields(form);
      match FirstEmpty(form, fields)
      case Some(i) => Some(Required(fields[i]))
      case None =>
        var vpn := form["vpn"];
        var channel := Get(form, "canal_vpn", "");
        if vpn != NoVpn && channel != "" then
          if lookupFault.Some? then Some(LookupFailed(lookupFault.value))
          else if PairTaken(s.devices, vpn, channel) then Some(VpnInUse(vpn, channel))
          else None
        else None
  }

  /** The keys the insert reads with `request.form[...]`, in evaluation
      order; the last one is the amount passed to `float()`. */
  function InsertKeys(kind: Kind): (keys: seq<string>)
    ensures |keys| > 0
  {
    match kind
    case DeviceKind => ["vpn", "responsable", "marca", "room", "pais", "costo"]
    case SaleKind => ["marca_venta", "descripcion_venta", "costo_venta"]
    case MaterialKind => ["nombre_material", "tipo_material", "room_material", "precio_material"]
  }

  /** The edit form shows the device: every field of the edit form holds
      the row's column (a missing key reads as ""). */
  predicate ShowsDevice(form: Form, d: Device) {
    && Get(form, "responsable", "") == d.responsible && Get(form, "marca", "") == d.brand
    && Get(form, "vpn", "") == d.vpn && Get(form, "canal_vpn", "") == d.vpnChannel
    && Get(form, "room", "") == d.room && Get(form, "cuentas_tiktok", "") == d.tiktokAccounts
    && Get(form, "pais", "") == d.country && Get(form, "apple_id", "") == d.appleId
    && Get(form, "foto", "") == d.photo && Get(form, "costo", "") == d.cost
    && Get(form, "comentarios", "") == d.comments
  }

  /** The last key the insert reads: the amount passed to `float()`. */
  function Last(keys: seq<string>): string
    requires |keys| > 0
  {
    keys[|keys| - 1]
  }

  /** How the insert fails, if it does: an absent key, an amount `float()`
      rejects, or a store fault. An unknown `tipo` inserts nothing but still
      commits. */
  function InsertFailure(kind: Option<Kind>, form: Form, env: CreateEnv): (r: Option<Failure>)
    ensures r.Some? ==> !r.value.BeforeAnyWrite()
    ensures r.Some? && r.value.MissingKey? ==>
              kind.Some? && r.value.key in InsertKeys(kind.value) && r.value.key !in form
    ensures r.Some? && r.value.StoreFailed? ==> env.writeFault == Some(r.value.err)
    ensures r.None? <==>
              && env.writeFault.None?
              && (kind.Some? ==> && (forall k :: k in InsertKeys(kind.value) ==> k in form)
                                 && env.numeric(form[Last(InsertKeys(kind.value))]))
    // precedence: an absent key (the first one in column order), then the
    // amount, then the store
    ensures kind.Some? && FirstAbsent(form, InsertKeys(kind.value)).Some? ==>
              r == Some(MissingKey(InsertKeys(kind.value)[FirstAbsent(form, InsertKeys(kind.value)).value]))
    ensures kind.Some? && (forall k :: k in InsertKeys(kind.value) ==> k in form)
              && !env.numeric(form[Last(InsertKeys(kind.value))]) ==>
              r == Some(NotNumeric(Last(InsertKeys(kind.value))))
    ensures (kind.Some? ==> && (forall k :: k in InsertKeys(kind.value) ==> k in form)
                            && env.numeric(form[Last(InsertKeys(kind.value))]))
              && env.writeFault.Some? ==>
              r == Some(StoreFailed(env.writeFault.value))
  {
    var keys := if kind.Some? then InsertKeys(kind.value) else [];
    match FirstAbsent(form, keys)
    case Some(i) => Some(MissingKey(keys[i]))
    case None =>
      if kind.Some? && !env.numeric(form[Last(keys)]) then Some(NotNumeric(Last(keys)))
      else if env.writeFault.Some? then Some(StoreFailed(env.writeFault.value))
      else None
  }

  /** The device row the insert writes. A device without VPN is stored with
      an empty channel whatever the form says. (`Get` stands for
      `request.form[...]` here: the keys it reads were checked present.) */
  function NewDevice(form: Form, gid: GroupId, code: string, env: CreateEnv): (d: Device)
    ensures d.group == Some(gid) && d.barcode == code
    ensures d.photo == env.photoUrl && d.dateAdded == env.today
  {
    var vpn := Get(form, "vpn", "");
    Device(Some(gid), Get(form, "responsable", ""), Get(form, "marca", ""), vpn,
           if vpn != NoVpn then Get(form, "canal_vpn", "") else "",
           Get(form, "room", ""), Get(form, "cuentas_tiktok", ""), Get(form, "pais", ""),
           Get(form, "apple_id", ""), env.photoUrl, Get(form, "costo", ""), env.today,
           Get(form, "comentarios", ""), code)
  }

  /** The columns of the inserted device row hold the form's fields: the
      required ones as submitted, the optional ones or "" when absent, and
      the channel only when the device has a VPN. */
  lemma NewDeviceColumns(form: Form, gid: GroupId, code: string, env: CreateEnv)
    ensures var d := NewDevice(form, gid, code, env);
            && ("responsable" in form ==> d.responsible == form["responsable"])
            && ("marca" in form ==> d.brand == form["marca"])
            && ("vpn" in form ==> d.vpn == form["vpn"])
            && ("room" in form ==> d.room == form["room"])
            && ("pais" in form ==> d.country == form["pais"])
            && ("costo" in form ==> d.cost == form["costo"])
            && d.tiktokAccounts == Get(form, "cuentas_tiktok", "") && d.appleId == Get(form, "apple_id", "")
            && d.comments == Get(form, "comentarios", "")
            && (d.vpn == NoVpn ==> d.vpnChannel == "")
            && (d.vpn != NoVpn ==> d.vpnChannel == Get(form, "canal_vpn", ""))
  {
  }

  function NewSale(form: Form, gid: GroupId, code: string, env: CreateEnv): SaleProduct {
    SaleProduct(Some(gid), Get(form, "marca_venta", ""), Get(form, "descripcion_venta", ""),
                if Filled(form, "caducidad_venta") then Some(form["caducidad_venta"]) else None,
                env.today, Get(form, "costo_venta", ""), Get(form, "lote_venta", ""), code)
  }

  function NewMaterial(form: Form, gid: GroupId, code: string, env: CreateEnv): Material {
    Material(Get(form, "nombre_material", ""), Get(form, "tipo_material", ""), Some(gid),
             Get(form, "room_material", ""), env.today, Get(form, "precio_material", ""), code)
  }

  /** The committed insert: one row at the table's next AUTOINCREMENT id. */
  function InsertRow(s: Store, kind: Option<Kind>, form: Form, gid: GroupId, code: string, env: CreateEnv): (r: Store)
    ensures r.codes == s.codes && r.groups == s.groups
  {
    match kind
    case None => s
    case Some(DeviceKind) =>
      s.(devices := s.devices[s.nextDevice := NewDevice(form, gid, code, env)], nextDevice := s.nextDevice + 1)
    case Some(SaleKind) =>
      s.(sales := s.sales[s.nextSale := NewSale(form, gid, code, env)], nextSale := s.nextSale + 1)
    case Some(MaterialKind) =>
      s.(materials := s.materials[s.nextMaterial := NewMaterial(form, gid, code, env)], nextMaterial := s.nextMaterial + 1)
  }

  /** Everything `agregar_producto` checks before it issues a code: the
      `tipo` and `grupo_id` keys, then, for a device, `ValidateDevice`. */
  function Precheck(s: Store, req: CreateRequest, env: CreateEnv): (r: Option<Failure>)
    ensures r.Some? ==> r.value.BeforeAnyWrite()
  {
    if "tipo" !in req.form then Some(BadRequest("tipo"))
    else if req.groupId.None? then Some(BadRequest("grupo_id"))
    else if KindOf(req.form["tipo"]) == Some(DeviceKind) then ValidateDevice(s, req.form, env.lookupFault)
    else None
  }

  /** What follows a passed validation: the code is issued and committed at
      once, so a failing insert leaves it reserved with no row carrying it. */
  function Register(s: Store, tipo: string, form: Form, gid: GroupId, env: CreateEnv): (r: Step<CreateResult>)
    ensures r.result.Rejected? ==> !r.result.failure.BeforeAnyWrite()
    ensures r.result.Hangs? ==> r.store == s
    ensures r.result.Rejected? ==>
              SameTables(r.store, s) && exists c :: c !in s.codes && r.store.codes == s.codes + {c}
    ensures r.result.Created? ==>
              r.result.barcode !in s.codes && r.store.codes == s.codes + {r.result.barcode}
    ensures r.result.Created? || r.result.Crashes? ==> r.store.groups == s.groups
    ensures r.result.Hangs? <==> Barcodes.Issue(s.codes, env.clock).None?
    ensures r.result.Rejected? ==>
              Barcodes.Issue(s.codes, env.clock).Some? && r.store.codes == Barcodes.Issue(s.codes, env.clock).value.reserved
    ensures r.result.Created? ==>
              Barcodes.Issue(s.codes, env.clock).Some? && r.result.barcode == Barcodes.Issue(s.codes, env.clock).value.code
    ensures Barcodes.Issue(s.codes, env.clock).Some? && InsertFailure(KindOf(tipo), form, env).Some? ==>
              r.result == Rejected(InsertFailure(KindOf(tipo), form, env).value)
    ensures Barcodes.Issue(s.codes, env.clock).Some? && InsertFailure(KindOf(tipo), form, env).None? ==>
              (r.result.Created? <==> gid in s.groups)
  {
    var kind := KindOf(tipo);
    match Barcodes.Issue(s.codes, env.clock)
    case None => Step(Hangs, s)
    case Some(issued) =>
      var s1 := s.(codes := issued.reserved);
      match InsertFailure(kind, form, env)
      case Some(f) =>
        assert !f.BeforeAnyWrite();
        Step(Rejected(f), s1)
      case None =>
        var s2 := InsertRow(s1, kind, form, gid, issued.code, env);
        if gid in s2.groups then
          Step(Created(issued.code, tipo, s2.groups[gid].name,
                       if kind == Some(DeviceKind) then env.photoUrl else ""), s2)
        else Step(Crashes, s2)
  }

  /** `agregar_producto` (POST). Validation runs first, and only once it
      passes is a code issued and the row inserted. */
  function Create(s: Store, req: CreateRequest, env: CreateEnv): (r: Step<CreateResult>)
    ensures r.result.Rejected? && r.result.failure.BeforeAnyWrite() ==> r.store == s
    ensures r.result.Hangs? ==> r.store == s
    ensures r.result.Rejected? && !r.result.failure.BeforeAnyWrite() ==>
              SameTables(r.store, s) && exists c :: c !in s.codes && r.store.codes == s.codes + {c}
    ensures r.result.Created? ==>
              r.result.barcode !in s.codes && r.store.codes == s.codes + {r.result.barcode}
    ensures r.result.Created? || r.result.Crashes? ==> r.store.groups == s.groups
    ensures Precheck(s, req, env).Some? ==> r == Step(Rejected(Precheck(s, req, env).value), s)
    ensures r.result.Hangs? <==> Precheck(s, req, env).None? && Barcodes.Issue(s.codes, env.clock).None?
    ensures Precheck(s, req, env).None? && r.result.Rejected? ==>
              Barcodes.Issue(s.codes, env.clock).Some? && r.store.codes == Barcodes.Issue(s.codes, env.clock).value.reserved
  {
    match Precheck(s, req, env)
    case Some(f) => Step(Rejected(f), s)
    case None => Register(s, req.form["tipo"], req.form, req.groupId.value, env)
  }

  /** A request that passes validation, meets a fresh clock reading, has an
      insert that does not fail and names an existing group is created, with
      the code of the first fresh reading. */
  lemma CreateSucceeds(s: Store, req: CreateRequest, env: CreateEnv)
    requires Precheck(s, req, env).None?
    requires Barcodes.Issue(s.codes, env.clock).Some?
    requires InsertFailure(KindOf(req.form["tipo"]), req.form, env).None?
    requires req.groupId.value in s.groups
    ensures Create(s, req, env).result.Created?
    ensures Create(s, req, env).result.barcode == Barcodes.Issue(s.codes, env.clock).value.code
    ensures Create(s, req, env).result.groupName == s.groups[req.groupId.value].name
  {
  }

  /** A successful creation is the insert of its row into the store with its
      fresh code reserved, in an existing group whose name it reports. */
  lemma CreatedIsInsert(s: Store, req: CreateRequest, env: CreateEnv)
    requires Create(s, req, env).result.Created?
    ensures var r := Create(s, req, env);
            && "tipo" in req.form && req.groupId.Some?
            && r.result.tipo == req.form["tipo"]
            && r.result.barcode !in s.codes
            && req.groupId.value in s.groups
            && r.result.groupName == s.groups[req.groupId.value].name
            && r.store == InsertRow(s.(codes := s.codes + {r.result.barcode}), KindOf(r.result.tipo),
                                    req.form, req.groupId.value, r.result.barcode, env)
  {
  }

  /** A create request for a device that carries its `grupo_id`. */
  predicate IsDeviceForm(req: CreateRequest) {
    "tipo" in req.form && req.form["tipo"] == "dispositivo" && req.groupId.Some?
  }

  /** Required fields are checked in list order, and the first empty one is
      reported with nothing written. */
  lemma CreateReportsFirstEmptyField(s: Store, req: CreateRequest, env: CreateEnv)
    requires IsDeviceForm(req) && "vpn" in req.form
    ensures FirstEmpty(req.form, ServerDeviceFields(req.form)).Some? ==>
              var i := FirstEmpty(req.form, ServerDeviceFields(req.form)).value;
              Create(s, req, env) == Step(Rejected(Required(ServerDeviceFields(req.form)[i])), s)
    ensures FirstEmpty(req.form, ServerDeviceFields(req.form)).None? ==>
              !(Create(s, req, env).result.Rejected? && Create(s, req, env).result.failure.Required?)
  {
  }

  /** The uniqueness rule on create: once the required fields pass, the
      device is refused exactly when it has a VPN, a non-empty channel, and
      some device already holds the pair; the refusal changes nothing. */
  lemma CreateRejectsTakenPair(s: Store, req: CreateRequest, env: CreateEnv)
    requires IsDeviceForm(req) && "vpn" in req.form
    requires FirstEmpty(req.form, ServerDeviceFields(req.form)).None?
    requires env.lookupFault.None?
    ensures var vpn := req.form["vpn"]; var ch := Get(req.form, "canal_vpn", "");
            Create(s, req, env).result == Rejected(VpnInUse(vpn, ch))
            <==> vpn != NoVpn && ch != "" && PairTaken(s.devices, vpn, ch)
    ensures Create(s, req, env).result.Rejected? && Create(s, req, env).result.failure.VpnInUse? ==>
              Create(s, req, env).store == s
  {
  }

  /** A device without VPN never meets the uniqueness rule on create,
      however many devices without VPN exist. */
  lemma CreateNoVpnNeverConflicts(s: Store, req: CreateRequest, env: CreateEnv)
    requires IsDeviceForm(req) && "vpn" in req.form && req.form["vpn"] == NoVpn
    ensures !(Create(s, req, env).result.Rejected? && Create(s, req, env).result.failure.VpnInUse?)
  {
  }

  /** A created device passed the server's device validation. */
  lemma CreatedDevicePassedValidation(s: Store, req: CreateRequest, env: CreateEnv)
    requires IsDeviceForm(req)
    requires Create(s, req, env).result.Created?
    ensures "vpn" in req.form && ValidateDevice(s, req.form, env.lookupFault).None?
  {
    assert Precheck(s, req, env).None?;
    assert KindOf(req.form["tipo"]) == Some(DeviceKind);
  }

  /** A device is created only when its six base fields are filled. */
  lemma CreatedDeviceFilled(s: Store, req: CreateRequest, env: CreateEnv)
    requires IsDeviceForm(req)
    requires Create(s, req, env).result.Created?
    ensures forall j :: 0 <= j < |DeviceBaseFields| ==> Filled(req.form, DeviceBaseFields[j])
  {
    CreatedDevicePassedValidation(s, req, env);
    ValidatedDeviceFilled(s, req.form, env.lookupFault);
  }

  /** Device validation passes only when the six base fields are filled. */
  lemma ValidatedDeviceFilled(s: Store, form: Form, lookupFault: Option<StoreError>)
    requires "vpn" in form && ValidateDevice(s, form, lookupFault).None?
    ensures forall j :: 0 <= j < |DeviceBaseFields| ==> Filled(form, DeviceBaseFields[j])
  {
    assert FirstEmpty(form, ServerDeviceFields(form)).None?;
    forall j | 0 <= j < |DeviceBaseFields| ensures Filled(form, DeviceBaseFields[j]) {
      assert ServerDeviceFields(form)[j] == DeviceBaseFields[j];
    }
  }

  /** What a successful device creation writes: one new row, at the old
      counter, carrying the issued code and the form's fields (the channel
      emptied when there is no VPN); the other tables are unchanged. */
  lemma CreatedDeviceRow(s: Store, req: CreateRequest, env: CreateEnv)
    requires IsDeviceForm(req)
    requires Create(s, req, env).result.Created?
    ensures Filled(req.form, "responsable") && Filled(req.form, "marca") && Filled(req.form, "vpn")
            && Filled(req.form, "room") && Filled(req.form, "pais") && Filled(req.form, "costo")
    ensures var r := Create(s, req, env); var d := r.store.devices[s.nextDevice];
            && r.store.devices == s.devices[s.nextDevice := d]
            && r.store.nextDevice == s.nextDevice + 1
            && d.barcode == r.result.barcode
            && d.group == req.groupId
            && d.vpn == req.form["vpn"]
            && d.vpnChannel == (if req.form["vpn"] == NoVpn then "" else Get(req.form, "canal_vpn", ""))
            && d.responsible == req.form["responsable"] && d.brand == req.form["marca"]
            && d.room == req.form["room"] && d.country == req.form["pais"] && d.cost == req.form["costo"]
            && d.tiktokAccounts == Get(req.form, "cuentas_tiktok", "") && d.appleId == Get(req.form, "apple_id", "")
            && d.comments == Get(req.form, "comentarios", "")
            && d.photo == env.photoUrl == r.result.photoUrl
            && d.dateAdded == env.today
            && r.store.(devices := s.devices, nextDevice := s.nextDevice, codes := s.codes) == s
  {
    CreatedDeviceFilled(s, req, env);
    assert Filled(req.form, DeviceBaseFields[0]) && Filled(req.form, DeviceBaseFields[1])
        && Filled(req.form, DeviceBaseFields[2]) && Filled(req.form, DeviceBaseFields[3])
        && Filled(req.form, DeviceBaseFields[4]) && Filled(req.form, DeviceBaseFields[5]);
    CreatedIsInsert(s, req, env);
    var r := Create(s, req, env);
    var d := NewDevice(req.form, req.groupId.value, r.result.barcode, env);
    NewDeviceColumns(req.form, req.groupId.value, r.result.barcode, env);
    assert r.store.devices == s.devices[s.nextDevice := d];
    assert r.store.devices[s.nextDevice] == d;
  }

  /** Creation keeps the store well formed: the new row's code was free, so
      it is unique, and it is now reserved. */
  lemma CreateWf(s: Store, req: CreateRequest, env: CreateEnv)
    requires Wf(s)
    ensures Wf(Create(s, req, env).store)
  {
    if Precheck(s, req, env).None? {
      var form := req.form;
      var kind := KindOf(form["tipo"]);
      var gid := req.groupId.value;
      var issue := Barcodes.Issue(s.codes, env.clock);
      if issue.Some? {
        var code := issue.value.code;
        var s1 := s.(codes := s.codes + {code});
        UnreservedIsUnused(s, code);
        ReserveWf(s, code);
        assert CodeUnused(s1, code);
        if InsertFailure(kind, form, env).None? {
          assert Create(s, req, env).store == InsertRow(s1, kind, form, gid, code, env);
          InsertRowWf(s1, kind, form, gid, code, env);
        }
      }
    }
  }

  /** Inserting a row whose code is reserved and unused keeps the store well
      formed. */
  lemma InsertRowWf(s: Store, kind: Option<Kind>, form: Form, gid: GroupId, code: string, env: CreateEnv)
    requires Wf(s) && code in s.codes && CodeUnused(s, code)
    ensures Wf(InsertRow(s, kind, form, gid, code, env))
  {
    if kind.Some? {
      InsertKindWf(s, kind.value, form, gid, code, env);
    }
  }

  lemma InsertKindWf(s: Store, kind: Kind, form: Form, gid: GroupId, code: string, env: CreateEnv)
    requires Wf(s) && code in s.codes && CodeUnused(s, code)
    ensures Wf(InsertRow(s, Some(kind), form, gid, code, env))
  {
    match kind {
      case DeviceKind => InsertDeviceWf(s, form, gid, code, env);
      case SaleKind => InsertSaleWf(s, form, gid, code, env);
      case MaterialKind => InsertMaterialWf(s, form, gid, code, env);
    }
  }

  lemma InsertDeviceWf(s: Store, form: Form, gid: GroupId, code: string, env: CreateEnv)
    requires Wf(s) && code in s.codes && CodeUnused(s, code)
    ensures Wf(InsertRow(s, Some(DeviceKind), form, gid, code, env))
  {
    var d := NewDevice(form, gid, code, env);
    assert InsertRow(s, Some(DeviceKind), form, gid, code, env)
        == s.(devices := s.devices[s.nextDevice := d], nextDevice := s.nextDevice + 1);
    AddDeviceWf(s, d);
  }

  lemma InsertSaleWf(s: Store, form: Form, gid: GroupId, code: string, env: CreateEnv)
    requires Wf(s) && code in s.codes && CodeUnused(s, code)
    ensures Wf(InsertRow(s, Some(SaleKind), form, gid, code, env))
  {
    var p := NewSale(form, gid, code, env);
    assert InsertRow(s, Some(SaleKind), form, gid, code, env)
        == s.(sales := s.sales[s.nextSale := p], nextSale := s.nextSale + 1);
    AddSaleWf(s, p);
  }

  lemma InsertMaterialWf(s: Store, form: Form, gid: GroupId, code: string, env: CreateEnv)
    requires Wf(s) && code in s.codes && CodeUnused(s, code)
    ensures Wf(InsertRow(s, Some(MaterialKind), form, gid, code, env))
  {
    var m := NewMaterial(form, gid, code, env);
    assert InsertRow(s, Some(MaterialKind), form, gid, code, env)
        == s.(materials := s.materials[s.nextMaterial := m], nextMaterial := s.nextMaterial + 1);
    AddMaterialWf(s, m);
  }

  // ===================== edit =====================

  /** The keys the device UPDATE reads, in evaluation order. */
  const DeviceEditKeys: seq<string> := ["responsable", "marca", "vpn", "canal_vpn", "room",
    "cuentas_tiktok", "pais", "apple_id", "foto", "costo", "comentarios"]

  const SaleEditKeys: seq<string> := ["caducidad", "marca", "descripcion", "costo", "lote"]

  const MaterialEditKeys: seq<string> := ["nombre", "tipo", "room", "precio"]

  datatype EditResult = Updated | EditRejected(failure: Failure)

  /** The device row after a full-row replace; the code and the date added
      are not among the columns the UPDATE sets. */
  function EditedDevice(d: Device, form: Form, groupId: Option<GroupId>): (r: Device)
    ensures r.group == groupId && r.barcode == d.barcode && r.dateAdded == d.dateAdded
    ensures ShowsDevice(form, r)
  {
    d.(group := groupId, responsible := Get(form, "responsable", ""), brand := Get(form, "marca", ""),
       vpn := Get(form, "vpn", ""), vpnChannel := Get(form, "canal_vpn", ""), room := Get(form, "room", ""),
       tiktokAccounts := Get(form, "cuentas_tiktok", ""), country := Get(form, "pais", ""),
       appleId := Get(form, "apple_id", ""), photo := Get(form, "foto", ""), cost := Get(form, "costo", ""),
       comments := Get(form, "comentarios", ""))
  }

  /** Saving a device's edit form unchanged, each key holding the row's
      current value and the group kept, leaves the row as it was. */
  lemma ResaveDeviceKeepsRow(d: Device, form: Form)
    requires ShowsDevice(form, d)
    ensures EditedDevice(d, form, d.group) == d
  {
  }

  function EditedSale(p: SaleProduct, form: Form, groupId: Option<GroupId>): SaleProduct {
    p.(group := groupId, brand := Get(form, "marca", ""), description := Get(form, "descripcion", ""),
       expiry := if Filled(form, "caducidad") then Some(form["caducidad"]) else None,
       cost := Get(form, "costo", ""), lot := Get(form, "lote", ""))
  }

  function EditedMaterial(m: Material, form: Form, groupId: Option<GroupId>): Material {
    m.(group := groupId, name := Get(form, "nombre", ""), category := Get(form, "tipo", ""),
       room := Get(form, "room", ""), price := Get(form, "precio", ""))
  }

  /** Applies the UPDATE ... WHERE id=?, which is a no-op for a missing id. */
  function Update<T>(t: map<ItemId, T>, id: ItemId, f: T -> T): (r: map<ItemId, T>)
    ensures r.Keys == t.Keys
    ensures forall k :: k in t && k != id ==> r[k] == t[k]
    ensures id in t ==> r[id] == f(t[id])
  {
    if id in t then t[id := f(t[id])] else t
  }

  /** The missing-key check and write shared by every kind: the first absent
      key of `keys` fails, then a store fault fails, otherwise `s'` is
      committed. */
  function Commit(s: Store, s': Store, form: Form, keys: seq<string>, fault: Option<StoreError>): (r: Step<EditResult>)
    ensures r.result.EditRejected? ==> r.store == s
    ensures r.result.Updated? ==> r.store == s'
    ensures r.result.Updated? <==> FirstAbsent(form, keys).None? && fault.None?
  {
    match FirstAbsent(form, keys)
    case Some(i) => Step(EditRejected(MissingKey(keys[i])), s)
    case None =>
      if fault.Some? then Step(EditRejected(StoreFailed(fault.value)), s)
      else Step(Updated, s')
  }

  /** `editar_producto`. For a device, `vpn` and `canal_vpn` are read first,
      then any OTHER device holding the pair refuses the edit; unlike
      creation there is no exemption for devices without VPN. `groupId` is
      `form.get('grupo_id')`: None writes NULL. `fault` is a store failure at
      the write. */
  function Edit(s: Store, tipo: string, id: ItemId, form: Form, groupId: Option<GroupId>,
                fault: Option<StoreError>): (r: Step<EditResult>)
    ensures r.result.EditRejected? ==> r.store == s
    ensures r.store.codes == s.codes
    ensures r.store.groups == s.groups && r.store.nextGroup == s.nextGroup
  {
    match KindOf(tipo)
    case None => Commit(s, s, form, [], fault)
    case Some(DeviceKind) =>
      if "vpn" !in form then Step(EditRejected(MissingKey("vpn")), s)
      else if "canal_vpn" !in form then Step(EditRejected(MissingKey("canal_vpn")), s)
      else if PairTakenByOther(s.devices, id, form["vpn"], form["canal_vpn"]) then
        Step(EditRejected(VpnInUse(form["vpn"], form["canal_vpn"])), s)
      else
        Commit(s, s.(devices := Update(s.devices, id, d => EditedDevice(d, form, groupId))),
               form, DeviceEditKeys, fault)
    case Some(SaleKind) =>
      Commit(s, s.(sales := Update(s.sales, id, p => EditedSale(p, form, groupId))),
             form, SaleEditKeys, fault)
    case Some(MaterialKind) =>
      Commit(s, s.(materials := Update(s.materials, id, m => EditedMaterial(m, form, groupId))),
             form, MaterialEditKeys, fault)
  }

  /** The uniqueness rule on edit: a device edit carrying both keys is
      refused, with nothing changed, exactly when another device holds the
      pair. */
  lemma EditRejectsPairOfOther(s: Store, id: ItemId, form: Form, groupId: Option<GroupId>, fault: Option<StoreError>)
    requires "vpn" in form && "canal_vpn" in form
    ensures Edit(s, "dispositivo", id, form, groupId, fault).result == EditRejected(VpnInUse(form["vpn"], form["canal_vpn"]))
            <==> PairTakenByOther(s.devices, id, form["vpn"], form["canal_vpn"])
  {
    var r := Edit(s, "dispositivo", id, form, groupId, fault);
    if !PairTakenByOther(s.devices, id, form["vpn"], form["canal_vpn"]) {
      var s' := s.(devices := Update(s.devices, id, d => EditedDevice(d, form, groupId)));
      assert r == Commit(s, s', form, DeviceEditKeys, fault);
    }
  }

  /** A device may keep its own pair: re-saving a device whose pair no other
      device holds is not refused by the uniqueness rule. */
  lemma EditKeepsOwnPair(s: Store, id: ItemId, form: Form, groupId: Option<GroupId>, fault: Option<StoreError>)
    requires id in s.devices
    requires "vpn" in form && "canal_vpn" in form
    requires form["vpn"] == s.devices[id].vpn && form["canal_vpn"] == s.devices[id].vpnChannel
    requires forall k :: k in s.devices && k != id ==>
               (s.devices[k].vpn, s.devices[k].vpnChannel) != (s.devices[id].vpn, s.devices[id].vpnChannel)
    ensures !(Edit(s, "dispositivo", id, form, groupId, fault).result.EditRejected? &&
              Edit(s, "dispositivo", id, form, groupId, fault).result.failure.VpnInUse?)
    ensures FirstAbsent(form, DeviceEditKeys).None? && fault.None? ==>
              Edit(s, "dispositivo", id, form, groupId, fault).result == Updated
  {
    EditRejectsPairOfOther(s, id, form, groupId, fault);
    EditDeviceAccepted(s, id, form, groupId, fault);
  }

  /** A device edit carrying both pair keys is accepted exactly when no other
      device holds the pair, every key the UPDATE reads is present and the
      write does not fail. */
  lemma EditDeviceAccepted(s: Store, id: ItemId, form: Form, groupId: Option<GroupId>, fault: Option<StoreError>)
    requires "vpn" in form && "canal_vpn" in form
    ensures Edit(s, "dispositivo", id, form, groupId, fault).result == Updated <==>
              && !PairTakenByOther(s.devices, id, form["vpn"], form["canal_vpn"])
              && FirstAbsent(form, DeviceEditKeys).None? && fault.None?
  {
    if !PairTakenByOther(s.devices, id, form["vpn"], form["canal_vpn"]) {
      var s' := s.(devices := Update(s.devices, id, d => EditedDevice(d, form, groupId)));
      assert Edit(s, "dispositivo", id, form, groupId, fault) == Commit(s, s', form, DeviceEditKeys, fault);
    }
  }

  /** An accepted device edit rewrites row `id` of the device table and
      nothing else; the row keeps its code and its date added. */
  lemma EditDeviceTouchesOnlyItsRow(s: Store, id: ItemId, form: Form, groupId: Option<GroupId>,
                                    fault: Option<StoreError>)
    requires Edit(s, "dispositivo", id, form, groupId, fault).result.Updated?
    ensures var t := Edit(s, "dispositivo", id, form, groupId, fault).store;
            && t.devices.Keys == s.devices.Keys
            && (forall k :: k in s.devices && k != id ==> t.devices[k] == s.devices[k])
            && (forall k :: k in s.devices ==> t.devices[k].barcode == s.devices[k].barcode)
            && (id in s.devices ==> t.devices[id].dateAdded == s.devices[id].dateAdded)
            && t == s.(devices := t.devices)
  {
    var t := Edit(s, "dispositivo", id, form, groupId, fault).store;
    assert t == s.(devices := Update(s.devices, id, d => EditedDevice(d, form, groupId)));
  }

  lemma EditSaleTouchesOnlyItsRow(s: Store, id: ItemId, form: Form, groupId: Option<GroupId>,
                                  fault: Option<StoreError>)
    requires Edit(s, "producto_venta", id, form, groupId, fault).result.Updated?
    ensures var t := Edit(s, "producto_venta", id, form, groupId, fault).store;
            && t.sales.Keys == s.sales.Keys
            && (forall k :: k in s.sales && k != id ==> t.sales[k] == s.sales[k])
            && (forall k :: k in s.sales ==> t.sales[k].barcode == s.sales[k].barcode)
            && (id in s.sales ==> t.sales[id].dateAdded == s.sales[id].dateAdded)
            && t == s.(sales := t.sales)
  {
    var t := Edit(s, "producto_venta", id, form, groupId, fault).store;
    assert t == s.(sales := Update(s.sales, id, p => EditedSale(p, form, groupId)));
  }

  lemma EditMaterialTouchesOnlyItsRow(s: Store, id: ItemId, form: Form, groupId: Option<GroupId>,
                                      fault: Option<StoreError>)
    requires Edit(s, "material_general", id, form, groupId, fault).result.Updated?
    ensures var t := Edit(s, "material_general", id, form, groupId, fault).store;
            && t.materials.Keys == s.materials.Keys
            && (forall k :: k in s.materials && k != id ==> t.materials[k] == s.materials[k])
            && (forall k :: k in s.materials ==> t.materials[k].barcode == s.materials[k].barcode)
            && (id in s.materials ==> t.materials[id].dateAdded == s.materials[id].dateAdded)
            && t == s.(materials := t.materials)
  {
    var t := Edit(s, "material_general", id, form, groupId, fault).store;
    assert t == s.(materials := Update(s.materials, id, m => EditedMaterial(m, form, groupId)));
  }

  /** Editing with an unknown `tipo` changes nothing. */
  lemma EditUnknownKindIsNoop(s: Store, tipo: string, id: ItemId, form: Form, groupId: Option<GroupId>,
                              fault: Option<StoreError>)
    requires KindOf(tipo).None?
    ensures Edit(s, tipo, id, form, groupId, fault).store == s
  {
  }

  /** Editing keeps the store well formed: no id and no code changes. */
  lemma EditWf(s: Store, tipo: string, id: ItemId, form: Form, groupId: Option<GroupId>, fault: Option<StoreError>)
    requires Wf(s)
    ensures Wf(Edit(s, tipo, id, form, groupId, fault).store)
  {
    match KindOf(tipo) {
      case None =>
      case Some(DeviceKind) =>
        assert tipo == "dispositivo";
        EditDeviceWf(s, id, form, groupId, fault);
      case Some(SaleKind) =>
        assert tipo == "producto_venta";
        EditSaleWf(s, id, form, groupId, fault);
      case Some(MaterialKind) =>
        assert tipo == "material_general";
        EditMaterialWf(s, id, form, groupId, fault);
    }
  }

  lemma EditDeviceWf(s: Store, id: ItemId, form: Form, groupId: Option<GroupId>, fault: Option<StoreError>)
    requires Wf(s)
    ensures Wf(Edit(s, "dispositivo", id, form, groupId, fault).store)
  {
    var r := Edit(s, "dispositivo", id, form, groupId, fault);
    if r.result.Updated? {
      EditDeviceTouchesOnlyItsRow(s, id, form, groupId, fault);
      ReplaceDevicesWf(s, r.store.devices);
    }
  }

  lemma EditSaleWf(s: Store, id: ItemId, form: Form, groupId: Option<GroupId>, fault: Option<StoreError>)
    requires Wf(s)
    ensures Wf(Edit(s, "producto_venta", id, form, groupId, fault).store)
  {
    var r := Edit(s, "producto_venta", id, form, groupId, fault);
    if r.result.Updated? {
      EditSaleTouchesOnlyItsRow(s, id, form, groupId, fault);
      ReplaceSalesWf(s, r.store.sales);
    }
  }

  lemma EditMaterialWf(s: Store, id: ItemId, form: Form, groupId: Option<GroupId>, fault: Option<StoreError>)
    requires Wf(s)
    ensures Wf(Edit(s, "material_general", id, form, groupId, fault).store)
  {
    var r := Edit(s, "material_general", id, form, groupId, fault);
    if r.result.Updated? {
      EditMaterialTouchesOnlyItsRow(s, id, form, groupId, fault);
      ReplaceMaterialsWf(s, r.store.materials);
    }
  }

  /** Create and edit disagree on devices without VPN: two of them, both
      stored with an empty channel, are created without complaint, but
      re-saving either one unchanged is refused because the other holds the
      same ("No tiene", "") pair. */
  lemma NoVpnEditRejectedAfterTwoCreates(s: Store, req1: CreateRequest, env1: CreateEnv,
                                         req2: CreateRequest, env2: CreateEnv,
                                         form: Form, fault: Option<StoreError>)
    requires IsDeviceForm(req1) && "vpn" in req1.form && req1.form["vpn"] == NoVpn
    requires IsDeviceForm(req2) && "vpn" in req2.form && req2.form["vpn"] == NoVpn
    requires Create(s, req1, env1).result.Created?
    requires Create(Create(s, req1, env1).store, req2, env2).result.Created?
    requires "vpn" in form && form["vpn"] == NoVpn && "canal_vpn" in form && form["canal_vpn"] == ""
    ensures var s2 := Create(Create(s, req1, env1).store, req2, env2).store;
            Edit(s2, "dispositivo", s.nextDevice, form, req1.groupId, fault).result
              == EditRejected(VpnInUse(NoVpn, ""))
  {
    var s1 := Create(s, req1, env1).store;
    var s2 := Create(s1, req2, env2).store;
    CreatedDeviceRow(s, req1, env1);
    CreatedDeviceRow(s1, req2, env2);
    assert s2.devices[s1.nextDevice].vpn == NoVpn && s2.devices[s1.nextDevice].vpnChannel == "";
    assert PairTakenByOther(s2.devices, s.nextDevice, NoVpn, "");
    EditRejectsPairOfOther(s2, s.nextDevice, form, req1.groupId, fault);
  }

  // ===================== delete =====================

  datatype DeleteResult = Deleted | DeleteFailed(err: StoreError)

  /** Frees a code from the reservation set, unless it is empty or the
      reservation DELETE raised (that error is printed and ignored). */
  function Release(codes: set<string>, code: string, releaseFault: bool): (r: set<string>)
    ensures r <= codes
    ensures code != "" && !releaseFault ==> code !in r && r + {code} == codes + {code}
    ensures code == "" || releaseFault ==> r == codes
  {
    if code != "" && !releaseFault then codes - {code} else codes
  }

  /** `eliminar_producto`: looks the row up, frees its code, then deletes it.
      A missing id or unknown `tipo` deletes nothing and still succeeds. A
      store fault aborts before the commit, so nothing changes. */
  function Delete(s: Store, tipo: string, id: ItemId, releaseFault: bool, fault: Option<StoreError>): (r: Step<DeleteResult>)
    ensures r.result.DeleteFailed? ==> r.store == s
    ensures r.store.codes <= s.codes
    ensures r.store.groups == s.groups
    ensures r.store.nextDevice == s.nextDevice && r.store.nextSale == s.nextSale && r.store.nextMaterial == s.nextMaterial
  {
    if fault.Some? then Step(DeleteFailed(fault.value), s)
    else match KindOf(tipo)
      case None => Step(Deleted, s)
      case Some(DeviceKind) =>
        if id in s.devices then
          Step(Deleted, s.(devices := s.devices - {id}, codes := Release(s.codes, s.devices[id].barcode, releaseFault)))
        else Step(Deleted, s)
      case Some(SaleKind) =>
        if id in s.sales then
          Step(Deleted, s.(sales := s.sales - {id}, codes := Release(s.codes, s.sales[id].barcode, releaseFault)))
        else Step(Deleted, s)
      case Some(MaterialKind) =>
        if id in s.materials then
          Step(Deleted, s.(materials := s.materials - {id}, codes := Release(s.codes, s.materials[id].barcode, releaseFault)))
        else Step(Deleted, s)
  }

  /** Deleting an existing device removes that row and frees its code;
      every other row and code stays. */
  lemma DeleteDeviceRemovesRowAndCode(s: Store, id: ItemId)
    requires id in s.devices && s.devices[id].barcode != ""
    ensures var r := Delete(s, "dispositivo", id, false, None);
            && r.result == Deleted
            && r.store.devices == s.devices - {id}
            && r.store.codes == s.codes - {s.devices[id].barcode}
            && r.store.sales == s.sales && r.store.materials == s.materials
  {
  }

  lemma DeleteSaleRemovesRowAndCode(s: Store, id: ItemId)
    requires id in s.sales && s.sales[id].barcode != ""
    ensures var r := Delete(s, "producto_venta", id, false, None);
            && r.result == Deleted
            && r.store.sales == s.sales - {id}
            && r.store.codes == s.codes - {s.sales[id].barcode}
            && r.store.devices == s.devices && r.store.materials == s.materials
  {
  }

  lemma DeleteMaterialRemovesRowAndCode(s: Store, id: ItemId)
    requires id in s.materials && s.materials[id].barcode != ""
    ensures var r := Delete(s, "material_general", id, false, None);
            && r.result == Deleted
            && r.store.materials == s.materials - {id}
            && r.store.codes == s.codes - {s.materials[id].barcode}
            && r.store.devices == s.devices && r.store.sales == s.sales
  {
  }

  /** Deleting an id that the table named by `tipo` does not have reports
      success and changes nothing, whatever the other tables hold; so does
      an unknown `tipo`. */
  lemma DeleteMissingIsNoop(s: Store, tipo: string, id: ItemId, releaseFault: bool)
    requires KindOf(tipo) == Some(DeviceKind) ==> id !in s.devices
    requires KindOf(tipo) == Some(SaleKind) ==> id !in s.sales
    requires KindOf(tipo) == Some(MaterialKind) ==> id !in s.materials
    ensures Delete(s, tipo, id, releaseFault, None) == Step(Deleted, s)
  {
  }

  /** Deletion keeps the store well formed: the freed code was carried by the
      deleted row alone. */
  lemma DeleteWf(s: Store, tipo: string, id: ItemId, releaseFault: bool, fault: Option<StoreError>)
    requires Wf(s)
    ensures Wf(Delete(s, tipo, id, releaseFault, fault).store)
  {
    if fault.None? {
      match KindOf(tipo) {
        case None =>
        case Some(DeviceKind) =>
          if id in s.devices {
            RemoveDeviceWf(s, id, Release(s.codes, s.devices[id].barcode, releaseFault));
          }
        case Some(SaleKind) =>
          if id in s.sales {
            RemoveSaleWf(s, id, Release(s.codes, s.sales[id].barcode, releaseFault));
          }
        case Some(MaterialKind) =>
          if id in s.materials {
            RemoveMaterialWf(s, id, Release(s.codes, s.materials[id].barcode, releaseFault));
          }
      }
    }
  }

  /** Deleting the row just inserted at the counter, together with its
      fresh code, gives back the store before the insert. */
  lemma DeleteUndoesDeviceInsert(s: Store, d: Device)
    requires IdsBelowCounters(s)
    requires d.barcode !in s.codes && d.barcode != ""
    ensures var c := s.(devices := s.devices[s.nextDevice := d], nextDevice := s.nextDevice + 1,
                        codes := s.codes + {d.barcode});
            Delete(c, "dispositivo", s.nextDevice, false, None) == Step(Deleted, s.(nextDevice := s.nextDevice + 1))
  {
    var n := s.nextDevice;
    var c := s.(devices := s.devices[n := d], nextDevice := n + 1, codes := s.codes + {d.barcode});
    assert n !in s.devices;
    assert c.devices - {n} == s.devices;
    assert c.codes - {d.barcode} == s.codes;
  }

  /** Creating a device and deleting it again restores the tables and the
      reservation set; only the AUTOINCREMENT counter has moved on. */
  lemma CreateThenDeleteDevice(s: Store, req: CreateRequest, env: CreateEnv)
    requires Wf(s)
    requires IsDeviceForm(req)
    requires Create(s, req, env).result.Created?
    requires Create(s, req, env).result.barcode != ""
    ensures var t := Delete(Create(s, req, env).store, "dispositivo", s.nextDevice, false, None).store;
            t == s.(nextDevice := s.nextDevice + 1)
  {
    var c := Create(s, req, env);
    var n := s.nextDevice;
    var d := c.store.devices[n];
    assert c.store == s.(devices := s.devices[n := d], nextDevice := n + 1, codes := s.codes + {d.barcode}) by {
      CreatedDeviceRow(s, req, env);
    }
    DeleteUndoesDeviceInsert(s, d);
  }
}

=== FILE: queries.dfy ===
/**
 * The read side: looking an item up by barcode (`buscar_producto`), a
 * group's inventory (`inventario_grupo`) and the spreadsheet export
 * (`exportar_excel`). Every query joins an item to its group, so an item
 * whose group is NULL or missing is never returned.
 */
module Queries {
  import opened Wrappers
  import opened Store
  import Items
  import Forms

  /** The lowest id in [lo, hi) whose row satisfies `p`: the row a scan in id
      order meets first. */
  function FirstKey<T>(t: map<ItemId, T>, p: T -> bool, lo: nat, hi: nat): (r: Option<ItemId>)
    ensures r.Some? ==> lo <= r.value < hi && r.value in t && p(t[r.value])
    ensures r.Some? ==> forall k :: lo <= k < r.value && k in t ==> !p(t[k])
    ensures r.None? ==> forall k :: lo <= k < hi && k in t ==> !p(t[k])
    decreases hi - lo
  {
    if lo >= hi then None
    else if lo in t && p(t[lo]) then Some(lo)
    else FirstKey(t, p, lo + 1, hi)
  }

  /** When exactly one row in range satisfies `p`, the scan returns it. */
  lemma FirstKeyUnique<T>(t: map<ItemId, T>, p: T -> bool, hi: nat, k: ItemId)
    requires k < hi && k in t && p(t[k])
    requires forall j :: j in t && j != k ==> !p(t[j])
    ensures FirstKey(t, p, 0, hi) == Some(k)
  {
  }

  // ===================== search =====================

  datatype Found =
    | FoundDevice(id: ItemId, device: Device, groupName: string)
    | FoundSale(id: ItemId, sale: SaleProduct, groupName: string)
    | FoundMaterial(id: ItemId, material: Material, groupName: string)
    | NotFound

  function DeviceHit(groups: map<GroupId, Group>, code: string): Device -> bool {
    (d: Device) => d.barcode == code && Joins(groups, d.group)
  }

  function SaleHit(groups: map<GroupId, Group>, code: string): SaleProduct -> bool {
    (p: SaleProduct) => p.barcode == code && Joins(groups, p.group)
  }

  function MaterialHit(groups: map<GroupId, Group>, code: string): Material -> bool {
    (m: Material) => m.barcode == code && Joins(groups, m.group)
  }

  /** `buscar_producto`: all three tables are queried, and the device match
      wins over the sale-product match, which wins over the material match. */
  function Search(s: Store, code: string): (r: Found)
    ensures r.FoundDevice? ==> r.id in s.devices && r.device == s.devices[r.id] && r.device.barcode == code
                               && Joins(s.groups, r.device.group) && r.groupName == GroupName(s.groups, r.device.group)
    ensures r.FoundSale? ==> r.id in s.sales && r.sale == s.sales[r.id] && r.sale.barcode == code
                             && Joins(s.groups, r.sale.group) && r.groupName == GroupName(s.groups, r.sale.group)
    ensures r.FoundMaterial? ==> r.id in s.materials && r.material == s.materials[r.id] && r.material.barcode == code
                                 && Joins(s.groups, r.material.group) && r.groupName == GroupName(s.groups, r.material.group)
  {
    match FirstKey(s.devices, DeviceHit(s.groups, code), 0, s.nextDevice)
    case Some(k) => FoundDevice(k, s.devices[k], GroupName(s.groups, s.devices[k].group))
    case None =>
      match FirstKey(s.sales, SaleHit(s.groups, code), 0, s.nextSale)
      case Some(k) => FoundSale(k, s.sales[k], GroupName(s.groups, s.sales[k].group))
      case None =>
        match FirstKey(s.materials, MaterialHit(s.groups, code), 0, s.nextMaterial)
        case Some(k) => FoundMaterial(k, s.materials[k], GroupName(s.groups, s.materials[k].group))
        case None => NotFound
  }

  predicate DeviceMatches(s: Store, code: string) {
    exists k :: k in s.devices && s.devices[k].barcode == code && Joins(s.groups, s.devices[k].group)
  }

  predicate SaleMatches(s: Store, code: string) {
    exists k :: k in s.sales && s.sales[k].barcode == code && Joins(s.groups, s.sales[k].group)
  }

  predicate MaterialMatches(s: Store, code: string) {
    exists k :: k in s.materials && s.materials[k].barcode == code && Joins(s.groups, s.materials[k].group)
  }

  /** The precedence of the search: devices, then sale products, then
      general material, then not found. */
  lemma SearchPrecedence(s: Store, code: string)
    requires IdsBelowCounters(s)
    ensures DeviceMatches(s, code) ==> Search(s, code).FoundDevice?
    ensures !DeviceMatches(s, code) && SaleMatches(s, code) ==> Search(s, code).FoundSale?
    ensures !DeviceMatches(s, code) && !SaleMatches(s, code) && MaterialMatches(s, code) ==>
              Search(s, code).FoundMaterial?
    ensures Search(s, code).NotFound? <==>
              !DeviceMatches(s, code) && !SaleMatches(s, code) && !MaterialMatches(s, code)
  {
    if DeviceMatches(s, code) {
      var k :| k in s.devices && s.devices[k].barcode == code && Joins(s.groups, s.devices[k].group);
      assert DeviceHit(s.groups, code)(s.devices[k]);
    } else if SaleMatches(s, code) {
      var k :| k in s.sales && s.sales[k].barcode == code && Joins(s.groups, s.sales[k].group);
      assert SaleHit(s.groups, code)(s.sales[k]);
    } else if MaterialMatches(s, code) {
      var k :| k in s.materials && s.materials[k].barcode == code && Joins(s.groups, s.materials[k].group);
      assert MaterialHit(s.groups, code)(s.materials[k]);
    }
  }

  /** A device inserted with a code no item carries is what a search for
      that code finds. */
  lemma SearchFindsNewDevice(s: Store, d: Device)
    requires Wf(s) && d.barcode !in s.codes && Joins(s.groups, d.group)
    ensures var t := s.(devices := s.devices[s.nextDevice := d], nextDevice := s.nextDevice + 1,
                        codes := s.codes + {d.barcode});
            Search(t, d.barcode) == FoundDevice(s.nextDevice, d, GroupName(s.groups, d.group))
  {
    var t := s.(devices := s.devices[s.nextDevice := d], nextDevice := s.nextDevice + 1,
                codes := s.codes + {d.barcode});
    UnreservedIsUnused(s, d.barcode);
    FirstKeyUnique(t.devices, DeviceHit(t.groups, d.barcode), t.nextDevice, s.nextDevice);
  }

  lemma SearchFindsNewSale(s: Store, p: SaleProduct)
    requires Wf(s) && p.barcode !in s.codes && Joins(s.groups, p.group)
    ensures var t := s.(sales := s.sales[s.nextSale := p], nextSale := s.nextSale + 1,
                        codes := s.codes + {p.barcode});
            Search(t, p.barcode) == FoundSale(s.nextSale, p, GroupName(s.groups, p.group))
  {
    var t := s.(sales := s.sales[s.nextSale := p], nextSale := s.nextSale + 1,
                codes := s.codes + {p.barcode});
    UnreservedIsUnused(s, p.barcode);
    assert FirstKey(t.devices, DeviceHit(t.groups, p.barcode), 0, t.nextDevice).None?;
    FirstKeyUnique(t.sales, SaleHit(t.groups, p.barcode), t.nextSale, s.nextSale);
  }

  lemma SearchFindsNewMaterial(s: Store, m: Material)
    requires Wf(s) && m.barcode !in s.codes && Joins(s.groups, m.group)
    ensures var t := s.(materials := s.materials[s.nextMaterial := m], nextMaterial := s.nextMaterial + 1,
                        codes := s.codes + {m.barcode});
            Search(t, m.barcode) == FoundMaterial(s.nextMaterial, m, GroupName(s.groups, m.group))
  {
    var t := s.(materials := s.materials[s.nextMaterial := m], nextMaterial := s.nextMaterial + 1,
                codes := s.codes + {m.barcode});
    UnreservedIsUnused(s, m.barcode);
    assert FirstKey(t.devices, DeviceHit(t.groups, m.barcode), 0, t.nextDevice).None?;
    assert FirstKey(t.sales, SaleHit(t.groups, m.barcode), 0, t.nextSale).None?;
    FirstKeyUnique(t.materials, MaterialHit(t.groups, m.barcode), t.nextMaterial, s.nextMaterial);
  }

  /** A code reserved without a row, as a create with an unknown `tipo`
      leaves it, is found nowhere. */
  lemma SearchMissesRowlessCode(s: Store, code: string)
    requires Wf(s) && code !in s.codes
    ensures Search(s.(codes := s.codes + {code}), code) == NotFound
  {
    UnreservedIsUnused(s, code);
    SearchPrecedence(s.(codes := s.codes + {code}), code);
  }

  /** A row inserted with a fresh code is what a search for that code
      finds; an unknown kind inserts nothing and the search finds nothing. */
  lemma SearchFindsInserted(s: Store, tipo: string, form: Forms.Form, gid: GroupId, code: string,
                            env: Items.CreateEnv)
    requires Wf(s) && code !in s.codes && gid in s.groups
    ensures var t := Items.InsertRow(s.(codes := s.codes + {code}), KindOf(tipo), form, gid, code, env);
            var f := Search(t, code);
            match KindOf(tipo)
            case Some(DeviceKind) => f == FoundDevice(s.nextDevice, t.devices[s.nextDevice], s.groups[gid].name)
            case Some(SaleKind) => f == FoundSale(s.nextSale, t.sales[s.nextSale], s.groups[gid].name)
            case Some(MaterialKind) => f == FoundMaterial(s.nextMaterial, t.materials[s.nextMaterial], s.groups[gid].name)
            case None => f == NotFound
  {
    match KindOf(tipo) {
      case None =>
        assert Items.InsertRow(s.(codes := s.codes + {code}), KindOf(tipo), form, gid, code, env) == s.(codes := s.codes + {code});
        SearchMissesRowlessCode(s, code);
      case Some(DeviceKind) => SearchFindsDeviceInsert(s, form, gid, code, env);
      case Some(SaleKind) => SearchFindsSaleInsert(s, form, gid, code, env);
      case Some(MaterialKind) => SearchFindsMaterialInsert(s, form, gid, code, env);
    }
  }

  lemma SearchFindsDeviceInsert(s: Store, form: Forms.Form, gid: GroupId, code: string, env: Items.CreateEnv)
    requires Wf(s) && code !in s.codes && gid in s.groups
    ensures var t := Items.InsertRow(s.(codes := s.codes + {code}), Some(DeviceKind), form, gid, code, env);
            Search(t, code) == FoundDevice(s.nextDevice, t.devices[s.nextDevice], s.groups[gid].name)
  {
    var d := Items.NewDevice(form, gid, code, env);
    assert Items.InsertRow(s.(codes := s.codes + {code}), Some(DeviceKind), form, gid, code, env)
        == s.(devices := s.devices[s.nextDevice := d], nextDevice := s.nextDevice + 1, codes := s.codes + {code});
    SearchFindsNewDevice(s, d);
  }

  lemma SearchFindsSaleInsert(s: Store, form: Forms.Form, gid: GroupId, code: string, env: Items.CreateEnv)
    requires Wf(s) && code !in s.codes && gid in s.groups
    ensures var t := Items.InsertRow(s.(codes := s.codes + {code}), Some(SaleKind), form, gid, code, env);
            Search(t, code) == FoundSale(s.nextSale, t.sales[s.nextSale], s.groups[gid].name)
  {
    var p := Items.NewSale(form, gid, code, env);
    assert Items.InsertRow(s.(codes := s.codes + {code}), Some(SaleKind), form, gid, code, env)
        == s.(sales := s.sales[s.nextSale := p], nextSale := s.nextSale + 1, codes := s.codes + {code});
    SearchFindsNewSale(s, p);
  }

  lemma SearchFindsMaterialInsert(s: Store, form: Forms.Form, gid: GroupId, code: string, env: Items.CreateEnv)
    requires Wf(s) && code !in s.codes && gid in s.groups
    ensures var t := Items.InsertRow(s.(codes := s.codes + {code}), Some(MaterialKind), form, gid, code, env);
            Search(t, code) == FoundMaterial(s.nextMaterial, t.materials[s.nextMaterial], s.groups[gid].name)
  {
    var m := Items.NewMaterial(form, gid, code, env);
    assert Items.InsertRow(s.(codes := s.codes + {code}), Some(MaterialKind), form, gid, code, env)
        == s.(materials := s.materials[s.nextMaterial := m], nextMaterial := s.nextMaterial + 1, codes := s.codes + {code});
    SearchFindsNewMaterial(s, m);
  }

  /** What `agregar_producto` reports is what a search for the new code
      finds: the new row, of the requested kind, in the reported group. */
  lemma CreateThenSearch(s: Store, req: Items.CreateRequest, env: Items.CreateEnv)
    requires Wf(s)
    requires Items.Create(s, req, env).result.Created?
    ensures var r := Items.Create(s, req, env);
            var f := Search(r.store, r.result.barcode);
            match KindOf(r.result.tipo)
            case Some(DeviceKind) => f == FoundDevice(s.nextDevice, r.store.devices[s.nextDevice], r.result.groupName)
            case Some(SaleKind) => f == FoundSale(s.nextSale, r.store.sales[s.nextSale], r.result.groupName)
            case Some(MaterialKind) => f == FoundMaterial(s.nextMaterial, r.store.materials[s.nextMaterial], r.result.groupName)
            case None => f == NotFound
  {
    var r := Items.Create(s, req, env);
    Items.CreatedIsInsert(s, req, env);
    SearchFindsInserted(s, r.result.tipo, req.form, req.groupId.value, r.result.barcode, env);
  }

  /** After a device is deleted, searching for its code finds nothing. */
  lemma DeleteThenSearch(s: Store, id: ItemId)
    requires Wf(s) && id in s.devices
    ensures Search(Items.Delete(s, "dispositivo", id, false, None).store, s.devices[id].barcode) == NotFound
  {
    var code := s.devices[id].barcode;
    var t := Items.Delete(s, "dispositivo", id, false, None).store;
    assert t.devices == s.devices - {id};
    assert t.sales == s.sales && t.materials == s.materials;
    SearchPrecedence(t, code);
  }

  /** After a sale product is deleted, searching for its code finds nothing. */
  lemma DeleteSaleThenSearch(s: Store, id: ItemId)
    requires Wf(s) && id in s.sales
    ensures Search(Items.Delete(s, "producto_venta", id, false, None).store, s.sales[id].barcode) == NotFound
  {
    var code := s.sales[id].barcode;
    var t := Items.Delete(s, "producto_venta", id, false, None).store;
    assert t.sales == s.sales - {id};
    assert t.devices == s.devices && t.materials == s.materials;
    SearchPrecedence(t, code);
  }

  /** After a material is deleted, searching for its code finds nothing. */
  lemma DeleteMaterialThenSearch(s: Store, id: ItemId)
    requires Wf(s) && id in s.materials
    ensures Search(Items.Delete(s, "material_general", id, false, None).store, s.materials[id].barcode) == NotFound
  {
    var code := s.materials[id].barcode;
    var t := Items.Delete(s, "material_general", id, false, None).store;
    assert t.materials == s.materials - {id};
    assert t.devices == s.devices && t.sales == s.sales;
    SearchPrecedence(t, code);
  }

  // ===================== a group's inventory =====================

  /** What `inventario_grupo` renders: the group and its items of each kind. */
  datatype GroupView = GroupView(
    group: Group,
    devices: map<ItemId, Device>,
    sales: map<ItemId, SaleProduct>,
    materials: map<ItemId, Material>)

  function NamedGroup(name: string): Group -> bool {
    (g: Group) => g.name == name
  }

  /** `inventario_grupo`: not found when no group has that name, otherwise
      every item joined to a group of that name. */
  function ListByGroup(s: Store, name: string): (r: Option<GroupView>)
    ensures r.Some? ==> r.value.group.name == name
    ensures r.Some? ==> forall k :: k in r.value.devices <==> k in s.devices && InGroupNamed(s.groups, s.devices[k].group, name)
    ensures r.Some? ==> forall k :: k in r.value.sales <==> k in s.sales && InGroupNamed(s.groups, s.sales[k].group, name)
    ensures r.Some? ==> forall k :: k in r.value.materials <==> k in s.materials && InGroupNamed(s.groups, s.materials[k].group, name)
  {
    match FirstKey(s.groups, NamedGroup(name), 0, s.nextGroup)
    case None => None
    case Some(gid) =>
      Some(GroupView(
        s.groups[gid],
        map k | k in s.devices && InGroupNamed(s.groups, s.devices[k].group, name) :: s.devices[k],
        map k | k in s.sales && InGroupNamed(s.groups, s.sales[k].group, name) :: s.sales[k],
        map k | k in s.materials && InGroupNamed(s.groups, s.materials[k].group, name) :: s.materials[k]))
  }

  /** The listing is not found exactly when no group has the name. */
  lemma ListByGroupNotFound(s: Store, name: string)
    requires IdsBelowCounters(s)
    ensures ListByGroup(s, name).None? <==> !HasGroupNamed(s.groups, name)
  {
    if HasGroupNamed(s.groups, name) {
      var id :| id in s.groups && s.groups[id].name == name;
      assert NamedGroup(name)(s.groups[id]);
    }
  }

  /** Because group names are unique, joining on the name picks the items
      whose group id is the listed group's id, and all of them. */
  lemma ListByGroupIsById(s: Store, name: string)
    requires Wf(s)
    requires ListByGroup(s, name).Some?
    ensures var v := ListByGroup(s, name).value;
            exists gid :: gid in s.groups && s.groups[gid] == v.group
              && (forall k :: k in v.devices <==> k in s.devices && s.devices[k].group == Some(gid))
              && (forall k :: k in v.sales <==> k in s.sales && s.sales[k].group == Some(gid))
              && (forall k :: k in v.materials <==> k in s.materials && s.materials[k].group == Some(gid))
  {
    var gid := FirstKey(s.groups, NamedGroup(name), 0, s.nextGroup).value;
    assert s.groups[gid].name == name;
    NamedIsId(s.groups, gid, name);
  }

  /** With unique names, joining a group called `name` is joining its id. */
  lemma NamedIsId(groups: map<GroupId, Group>, gid: GroupId, name: string)
    requires GroupNamesUnique(groups) && gid in groups && groups[gid].name == name
    ensures forall g :: InGroupNamed(groups, g, name) <==> g == Some(gid)
  {
  }

  /** A group that exists but holds nothing lists three empty collections. */
  lemma EmptyGroupListsNothing(s: Store, name: string)
    requires Wf(s) && HasGroupNamed(s.groups, name)
    requires forall k :: k in s.devices ==> !InGroupNamed(s.groups, s.devices[k].group, name)
    requires forall k :: k in s.sales ==> !InGroupNamed(s.groups, s.sales[k].group, name)
    requires forall k :: k in s.materials ==> !InGroupNamed(s.groups, s.materials[k].group, name)
    ensures ListByGroup(s, name).Some?
    ensures ListByGroup(s, name).value.devices == map[]
    ensures ListByGroup(s, name).value.sales == map[]
    ensures ListByGroup(s, name).value.materials == map[]
  {
    ListByGroupNotFound(s, name);
  }

  // ===================== spreadsheet export =====================

  datatype SheetKind = DevicesSheet | SalesSheet | MaterialsSheet {
    function Name(): string {
      match this
      case DevicesSheet => "Dispositivos"
      case SalesSheet => "Productos de Venta"
      case MaterialsSheet => "Material General"
    }
  }

  /** Which sheets are written, in which order, under which file name, and
      which group filter the rows get (None: every group). */
  datatype ExportPlan = ExportPlan(filename: string, sheets: seq<SheetKind>, groupFilter: Option<string>)

  const All: string := "todos"

  /** `exportar_excel`'s decisions as a function of its two query
      parameters, both defaulting to "todos". */
  function PlanExport(grupoArg: Option<string>, tipoArg: Option<string>): (p: ExportPlan)
    ensures var grupo := grupoArg.GetOr(All); var tipo := tipoArg.GetOr(All);
            && (DevicesSheet in p.sheets <==> tipo == All || tipo == "dispositivos")
            && (SalesSheet in p.sheets <==> tipo == All || tipo == "productos_venta")
            && (MaterialsSheet in p.sheets <==> tipo == All || tipo == "material_general")
            && (p.groupFilter.None? <==> grupo == All)
            && (p.groupFilter.Some? ==> p.groupFilter.value == grupo)
    ensures forall i, j :: 0 <= i < j < |p.sheets| ==> p.sheets[i] != p.sheets[j]
  {
    var grupo := grupoArg.GetOr(All);
    var tipo := tipoArg.GetOr(All);
    var sheets :=
      (if tipo == All || tipo == "dispositivos" then [DevicesSheet] else [])
      + (if tipo == All || tipo == "productos_venta" then [SalesSheet] else [])
      + (if tipo == All || tipo == "material_general" then [MaterialsSheet] else []);
    ExportPlan(
      if grupo != All then "inventario_" + grupo + ".xlsx" else "inventario_completo.xlsx",
      sheets,
      if grupo == All then None else Some(grupo))
  }

  /** The file name names the group, or says the export is complete. */
  lemma ExportFilename(grupo: string)
    ensures grupo == All ==> PlanExport(Some(grupo), None).filename == "inventario_completo.xlsx"
    ensures grupo != All ==> PlanExport(Some(grupo), None).filename == "inventario_" + grupo + ".xlsx"
    ensures PlanExport(None, None).filename == "inventario_completo.xlsx"
  {
  }

  /** Sheets keep the fixed order devices, sale products, general material. */
  lemma ExportSheetOrder(grupoArg: Option<string>, tipoArg: Option<string>)
    ensures var p := PlanExport(grupoArg, tipoArg);
            forall i, j :: 0 <= i < j < |p.sheets| ==>
              (p.sheets[i] == DevicesSheet) || (p.sheets[i] == SalesSheet && p.sheets[j] == MaterialsSheet)
  {
  }

  /** Every sheet of an export gets a name of its own, so no sheet
      overwrites another in the workbook; a complete export writes the three
      tabs in the order devices, sale products, general material. */
  lemma ExportSheetNames(grupoArg: Option<string>, tipoArg: Option<string>)
    ensures var p := PlanExport(grupoArg, tipoArg);
            forall i, j :: 0 <= i < j < |p.sheets| ==> p.sheets[i].Name() != p.sheets[j].Name()
    ensures var p := PlanExport(grupoArg, None);
            |p.sheets| == 3 && p.sheets[0].Name() == "Dispositivos"
            && p.sheets[1].Name() == "Productos de Venta" && p.sheets[2].Name() == "Material General"
  {
  }

  /** An exported row: the item and its group's name (`grupo_nombre`). */
  datatype Row<T> = Row(item: T, groupName: string)

  /** An item is exported when it joins a group and passes the group filter. */
  predicate Exported(groups: map<GroupId, Group>, g: Option<GroupId>, filter: Option<string>) {
    Joins(groups, g) && (filter.None? || groups[g.value].name == filter.value)
  }

  /** The device sheet's rows: every device joined to a group that passes
      the filter, with its group's name. */
  function DeviceRows(s: Store, filter: Option<string>): (r: map<ItemId, Row<Device>>)
    ensures forall k :: k in r <==> k in s.devices && Exported(s.groups, s.devices[k].group, filter)
    ensures forall k :: k in r ==>
              k in s.devices && Joins(s.groups, s.devices[k].group)
              && r[k].item == s.devices[k] && r[k].groupName == GroupName(s.groups, s.devices[k].group)
    ensures filter.Some? ==> forall k :: k in r ==> r[k].groupName == filter.value
  {
    map k | k in s.devices && Exported(s.groups, s.devices[k].group, filter)
      :: Row(s.devices[k], GroupName(s.groups, s.devices[k].group))
  }

  /** The sale-product sheet's rows, chosen the same way. */
  function SaleRows(s: Store, filter: Option<string>): (r: map<ItemId, Row<SaleProduct>>)
    ensures forall k :: k in r <==> k in s.sales && Exported(s.groups, s.sales[k].group, filter)
    ensures forall k :: k in r ==>
              k in s.sales && Joins(s.groups, s.sales[k].group)
              && r[k].item == s.sales[k] && r[k].groupName == GroupName(s.groups, s.sales[k].group)
    ensures filter.Some? ==> forall k :: k in r ==> r[k].groupName == filter.value
  {
    map k | k in s.sales && Exported(s.groups, s.sales[k].group, filter)
      :: Row(s.sales[k], GroupName(s.groups, s.sales[k].group))
  }

  /** The general-material sheet's rows, chosen the same way. */
  function MaterialRows(s: Store, filter: Option<string>): (r: map<ItemId, Row<Material>>)
    ensures forall k :: k in r <==> k in s.materials && Exported(s.groups, s.materials[k].group, filter)
    ensures forall k :: k in r ==>
              k in s.materials && Joins(s.groups, s.materials[k].group)
              && r[k].item == s.materials[k] && r[k].groupName == GroupName(s.groups, s.materials[k].group)
    ensures filter.Some? ==> forall k :: k in r ==> r[k].groupName == filter.value
  {
    map k | k in s.materials && Exported(s.groups, s.materials[k].group, filter)
      :: Row(s.materials[k], GroupName(s.groups, s.materials[k].group))
  }

  /** Exporting one group writes the same items its inventory page lists,
      each with that group's name; for a group that does not exist the page
      is not found while the export is a workbook of empty sheets. */
  lemma ExportAgreesWithListing(s: Store, grupo: string)
    requires IdsBelowCounters(s)
    requires grupo != All
    ensures var f := PlanExport(Some(grupo), None).groupFilter;
            match ListByGroup(s, grupo)
            case Some(v) =>
              && DeviceRows(s, f).Keys == v.devices.Keys
              && SaleRows(s, f).Keys == v.sales.Keys
              && MaterialRows(s, f).Keys == v.materials.Keys
              && (forall k :: k in v.devices ==> DeviceRows(s, f)[k] == Row(v.devices[k], grupo))
              && (forall k :: k in v.sales ==> SaleRows(s, f)[k] == Row(v.sales[k], grupo))
              && (forall k :: k in v.materials ==> MaterialRows(s, f)[k] == Row(v.materials[k], grupo))
            case None =>
              DeviceRows(s, f) == map[] && SaleRows(s, f) == map[] && MaterialRows(s, f) == map[]
  {
    assert PlanExport(Some(grupo), None).groupFilter == Some(grupo);
    DeviceSheetAgrees(s, grupo);
    SaleSheetAgrees(s, grupo);
    MaterialSheetAgrees(s, grupo);
  }

  lemma DeviceSheetAgrees(s: Store, grupo: string)
    requires IdsBelowCounters(s)
    ensures ListByGroup(s, grupo).Some? ==>
              && DeviceRows(s, Some(grupo)).Keys == ListByGroup(s, grupo).value.devices.Keys
              && forall k :: k in ListByGroup(s, grupo).value.devices ==>
                   DeviceRows(s, Some(grupo))[k] == Row(ListByGroup(s, grupo).value.devices[k], grupo)
    ensures ListByGroup(s, grupo).None? ==> DeviceRows(s, Some(grupo)) == map[]
  {
    ListByGroupNotFound(s, grupo);
    if ListByGroup(s, grupo).None? {
      assert DeviceRows(s, Some(grupo)).Keys == {};
    }
  }

  lemma SaleSheetAgrees(s: Store, grupo: string)
    requires IdsBelowCounters(s)
    ensures ListByGroup(s, grupo).Some? ==>
              && SaleRows(s, Some(grupo)).Keys == ListByGroup(s, grupo).value.sales.Keys
              && forall k :: k in ListByGroup(s, grupo).value.sales ==>
                   SaleRows(s, Some(grupo))[k] == Row(ListByGroup(s, grupo).value.sales[k], grupo)
    ensures ListByGroup(s, grupo).None? ==> SaleRows(s, Some(grupo)) == map[]
  {
    ListByGroupNotFound(s, grupo);
    if ListByGroup(s, grupo).None? {
      assert SaleRows(s, Some(grupo)).Keys == {};
    }
  }

  lemma MaterialSheetAgrees(s: Store, grupo: string)
    requires IdsBelowCounters(s)
    ensures ListByGroup(s, grupo).Some? ==>
              && MaterialRows(s, Some(grupo)).Keys == ListByGroup(s, grupo).value.materials.Keys
              && forall k :: k in ListByGroup(s, grupo).value.materials ==>
                   MaterialRows(s, Some(grupo))[k] == Row(ListByGroup(s, grupo).value.materials[k], grupo)
    ensures ListByGroup(s, grupo).None? ==> MaterialRows(s, Some(grupo)) == map[]
  {
    ListByGroupNotFound(s, grupo);
    if ListByGroup(s, grupo).None? {
      assert MaterialRows(s, Some(grupo)).Keys == {};
    }
  }
}

=== FILE: store.dfy ===
/**
 * The catalog store: the groups table, the three item tables (devices, sale
 * products, general material) keyed by their AUTOINCREMENT id, and the
 * reservation set of barcodes already handed out (`codigos_barras`).
 */
module Store {
  import opened Wrappers

  type GroupId = nat
  type ItemId = nat

  /** A row of `grupos`; `nombre` is UNIQUE. */
  datatype Group = Group(name: string, description: string)

  /** A row of `dispositivos`. `group` is None when the column is NULL.
      Amounts and dates are kept as the text they were given. */
  datatype Device = Device(
    group: Option<GroupId>,
    responsible: string,
    brand: string,
    vpn: string,
    vpnChannel: string,
    room: string,
    tiktokAccounts: string,
    country: string,
    appleId: string,
    photo: string,
    cost: string,
    dateAdded: string,
    comments: string,
    barcode: string)

  /** A row of `productos_venta`; `expiry` is None when the column is NULL. */
  datatype SaleProduct = SaleProduct(
    group: Option<GroupId>,
    brand: string,
    description: string,
    expiry: Option<string>,
    dateAdded: string,
    cost: string,
    lot: string,
    barcode: string)

  /** A row of `material_general`. */
  datatype Material = Material(
    name: string,
    category: string,
    group: Option<GroupId>,
    room: string,
    dateAdded: string,
    price: string,
    barcode: string)

  /** Each table carries the next id its AUTOINCREMENT will hand out. */
  datatype Store = Store(
    groups: map<GroupId, Group>,
    nextGroup: nat,
    devices: map<ItemId, Device>,
    nextDevice: nat,
    sales: map<ItemId, SaleProduct>,
    nextSale: nat,
    materials: map<ItemId, Material>,
    nextMaterial: nat,
    codes: set<string>)

  /** A freshly created database file: empty tables, ids starting at 1. */
  const Empty: Store := Store(map[], 1, map[], 1, map[], 1, map[], 1, {})

  /** The `vpn` value meaning the device has no VPN. */
  const NoVpn: string := "No tiene"

  /** The kinds of item, under the `tipo` strings the create, edit and
      delete requests use. */
  datatype Kind = DeviceKind | SaleKind | MaterialKind

  function KindOf(tipo: string): Option<Kind> {
    if tipo == "dispositivo" then Some(DeviceKind)
    else if tipo == "producto_venta" then Some(SaleKind)
    else if tipo == "material_general" then Some(MaterialKind)
    else None
  }

  /** The inner join `item.grupo_id = g.id`: a NULL or dangling group never joins. */
  predicate Joins(groups: map<GroupId, Group>, g: Option<GroupId>) {
    g.Some? && g.value in groups
  }

  /** The join restricted to groups called `name` (`WHERE g.nombre = ?`). */
  predicate InGroupNamed(groups: map<GroupId, Group>, g: Option<GroupId>, name: string) {
    Joins(groups, g) && groups[g.value].name == name
  }

  function GroupName(groups: map<GroupId, Group>, g: Option<GroupId>): string
    requires Joins(groups, g)
  {
    groups[g.value].name
  }

  predicate HasGroupNamed(groups: map<GroupId, Group>, name: string) {
    exists id :: id in groups && groups[id].name == name
  }

  /** The data part of the store, everything except the reservation set. */
  predicate SameTables(a: Store, b: Store) {
    && a.groups == b.groups && a.nextGroup == b.nextGroup
    && a.devices == b.devices && a.nextDevice == b.nextDevice
    && a.sales == b.sales && a.nextSale == b.nextSale
    && a.materials == b.materials && a.nextMaterial == b.nextMaterial
  }

  // ----- Well-formedness: what every reachable store satisfies -----

  /** Every id in use is below its table's AUTOINCREMENT counter. */
  ghost predicate IdsBelowCounters(s: Store) {
    && (forall k :: k in s.groups ==> k < s.nextGroup)
    && (forall k :: k in s.devices ==> k < s.nextDevice)
    && (forall k :: k in s.sales ==> k < s.nextSale)
    && (forall k :: k in s.materials ==> k < s.nextMaterial)
  }

  /** `grupos.nombre` is UNIQUE. */
  ghost predicate GroupNamesUnique(groups: map<GroupId, Group>) {
    forall i, j :: i in groups && j in groups && groups[i].name == groups[j].name ==> i == j
  }

  /** Every barcode an item carries is in the reservation set. */
  ghost predicate BarcodesReserved(s: Store) {
    && (forall k :: k in s.devices ==> s.devices[k].barcode in s.codes)
    && (forall k :: k in s.sales ==> s.sales[k].barcode in s.codes)
    && (forall k :: k in s.materials ==> s.materials[k].barcode in s.codes)
  }

  /** No two items, in the same table or in different ones, share a barcode. */
  ghost predicate BarcodesDistinct(s: Store) {
    && (forall i, j :: i in s.devices && j in s.devices && s.devices[i].barcode == s.devices[j].barcode ==> i == j)
    && (forall i, j :: i in s.sales && j in s.sales && s.sales[i].barcode == s.sales[j].barcode ==> i == j)
    && (forall i, j :: i in s.materials && j in s.materials && s.materials[i].barcode == s.materials[j].barcode ==> i == j)
    && (forall i, j :: i in s.devices && j in s.sales ==> s.devices[i].barcode != s.sales[j].barcode)
    && (forall i, j :: i in s.devices && j in s.materials ==> s.devices[i].barcode != s.materials[j].barcode)
    && (forall i, j :: i in s.sales && j in s.materials ==> s.sales[i].barcode != s.materials[j].barcode)
  }

  ghost predicate Wf(s: Store) {
    && IdsBelowCounters(s)
    && GroupNamesUnique(s.groups)
    && BarcodesReserved(s)
    && BarcodesDistinct(s)
  }

  lemma EmptyWf()
    ensures Wf(Empty)
  {
  }

  /** A barcode outside the reservation set belongs to no item of a
      well-formed store. */
  lemma UnreservedIsUnused(s: Store, code: string)
    requires Wf(s)
    requires code !in s.codes
    ensures forall k :: k in s.devices ==> s.devices[k].barcode != code
    ensures forall k :: k in s.sales ==> s.sales[k].barcode != code
    ensures forall k :: k in s.materials ==> s.materials[k].barcode != code
  {
  }

  /** No item of the store carries `code`. */
  ghost predicate CodeUnused(s: Store, code: string) {
    && (forall k :: k in s.devices ==> s.devices[k].barcode != code)
    && (forall k :: k in s.sales ==> s.sales[k].barcode != code)
    && (forall k :: k in s.materials ==> s.materials[k].barcode != code)
  }

  // ----- The primitive changes the item service makes keep Wf -----

  lemma ReserveWf(s: Store, code: string)
    requires Wf(s)
    ensures Wf(s.(codes := s.codes + {code}))
  {
  }

  lemma AddDeviceWf(s: Store, d: Device)
    requires Wf(s) && d.barcode in s.codes && CodeUnused(s, d.barcode)
    ensures Wf(s.(devices := s.devices[s.nextDevice := d], nextDevice := s.nextDevice + 1))
  {
    var t := s.(devices := s.devices[s.nextDevice := d], nextDevice := s.nextDevice + 1);
    assert IdsBelowCounters(t);
    assert BarcodesReserved(t);
    forall i, j | i in t.devices && j in t.devices && t.devices[i].barcode == t.devices[j].barcode
      ensures i == j
    {
      if i != s.nextDevice && j != s.nextDevice {
        assert s.devices[i].barcode == s.devices[j].barcode;
      }
    }
    assert BarcodesDistinct(t);
  }

  lemma AddSaleWf(s: Store, p: SaleProduct)
    requires Wf(s) && p.barcode in s.codes && CodeUnused(s, p.barcode)
    ensures Wf(s.(sales := s.sales[s.nextSale := p], nextSale := s.nextSale + 1))
  {
    var t := s.(sales := s.sales[s.nextSale := p], nextSale := s.nextSale + 1);
    assert IdsBelowCounters(t);
    assert BarcodesReserved(t);
    forall i, j | i in t.sales && j in t.sales && t.sales[i].barcode == t.sales[j].barcode
      ensures i == j
    {
      if i != s.nextSale && j != s.nextSale {
        assert s.sales[i].barcode == s.sales[j].barcode;
      }
    }
    assert BarcodesDistinct(t);
  }

  lemma AddMaterialWf(s: Store, m: Material)
    requires Wf(s) && m.barcode in s.codes && CodeUnused(s, m.barcode)
    ensures Wf(s.(materials := s.materials[s.nextMaterial := m], nextMaterial := s.nextMaterial + 1))
  {
    var t := s.(materials := s.materials[s.nextMaterial := m], nextMaterial := s.nextMaterial + 1);
    assert IdsBelowCounters(t);
    assert BarcodesReserved(t);
    forall i, j | i in t.materials && j in t.materials && t.materials[i].barcode == t.materials[j].barcode
      ensures i == j
    {
      if i != s.nextMaterial && j != s.nextMaterial {
        assert s.materials[i].barcode == s.materials[j].barcode;
      }
    }
    assert BarcodesDistinct(t);
  }

  /** Rewriting rows in place, without touching ids or codes. */
  lemma ReplaceDevicesWf(s: Store, devices: map<ItemId, Device>)
    requires Wf(s) && devices.Keys == s.devices.Keys
    requires forall k :: k in devices ==> devices[k].barcode == s.devices[k].barcode
    ensures Wf(s.(devices := devices))
  {
  }

  lemma ReplaceSalesWf(s: Store, sales: map<ItemId, SaleProduct>)
    requires Wf(s) && sales.Keys == s.sales.Keys
    requires forall k :: k in sales ==> sales[k].barcode == s.sales[k].barcode
    ensures Wf(s.(sales := sales))
  {
  }

  lemma ReplaceMaterialsWf(s: Store, materials: map<ItemId, Material>)
    requires Wf(s) && materials.Keys == s.materials.Keys
    requires forall k :: k in materials ==> materials[k].barcode == s.materials[k].barcode
    ensures Wf(s.(materials := materials))
  {
  }

  /** Removing a row and, at most, its own code from the reservation set. */
  lemma RemoveDeviceWf(s: Store, id: ItemId, codes: set<string>)
    requires Wf(s) && id in s.devices
    requires s.codes - {s.devices[id].barcode} <= codes <= s.codes
    ensures Wf(s.(devices := s.devices - {id}, codes := codes))
  {
  }

  lemma RemoveSaleWf(s: Store, id: ItemId, codes: set<string>)
    requires Wf(s) && id in s.sales
    requires s.codes - {s.sales[id].barcode} <= codes <= s.codes
    ensures Wf(s.(sales := s.sales - {id}, codes := codes))
  {
  }

  lemma RemoveMaterialWf(s: Store, id: ItemId, codes: set<string>)
    requires Wf(s) && id in s.materials
    requires s.codes - {s.materials[id].barcode} <= codes <= s.codes
    ensures Wf(s.(materials := s.materials - {id}, codes := codes))
  {
  }

  // ----- init_db: seeding the default groups -----

  /** The default groups `init_db` inserts, in order. */
  const Seeds: seq<Group> := [
    Group("EC", "Grupo EC"), Group("GL", "Grupo GL"), Group("RH", "Grupo RH"),
    Group("PCG", "Grupo PCG"), Group("ALMACEN", "Grupo ALMACEN")]

  /** One seed INSERT: it fails on the UNIQUE name (and the failure is
      swallowed), otherwise it takes the next AUTOINCREMENT id. */
  function SeedGroup(s: Store, g: Group): (r: Store)
    ensures HasGroupNamed(r.groups, g.name)
    ensures HasGroupNamed(s.groups, g.name) ==> r == s
    ensures !HasGroupNamed(s.groups, g.name) ==>
              r == s.(groups := s.groups[s.nextGroup := g], nextGroup := s.nextGroup + 1)
  {
    if HasGroupNamed(s.groups, g.name) then s
    else
      var r := s.(groups := s.groups[s.nextGroup := g], nextGroup := s.nextGroup + 1);
      assert r.groups[s.nextGroup].name == g.name;
      r
  }

  /** The seed inserts in order: only the group table and its counter can
      change, and each insert takes at most one id. */
  function SeedAll(s: Store, seeds: seq<Group>): (r: Store)
    ensures r.(groups := s.groups, nextGroup := s.nextGroup) == s
    ensures s.nextGroup <= r.nextGroup <= s.nextGroup + |seeds|
    decreases |seeds|
  {
    if |seeds| == 0 then s else SeedAll(SeedGroup(s, seeds[0]), seeds[1..])
  }

  /** `init_db` on an existing store: only the groups table can change. */
  function InitDb(s: Store): (r: Store)
    ensures r.(groups := s.groups, nextGroup := s.nextGroup) == s
    ensures s.nextGroup <= r.nextGroup <= s.nextGroup + 5
  {
    SeedAll(s, Seeds)
  }

  /** Seeding never removes or renames a group. */
  lemma SeedAllKeepsGroups(s: Store, seeds: seq<Group>)
    requires IdsBelowCounters(s)
    ensures IdsBelowCounters(SeedAll(s, seeds))
    ensures forall k :: k in s.groups ==> k in SeedAll(s, seeds).groups && SeedAll(s, seeds).groups[k] == s.groups[k]
    ensures forall i :: 0 <= i < |seeds| ==> HasGroupNamed(SeedAll(s, seeds).groups, seeds[i].name)
    ensures SeedAll(s, seeds).(groups := s.groups, nextGroup := s.nextGroup) == s
    ensures s.nextGroup <= SeedAll(s, seeds).nextGroup
  {
    SeedAllKeeps(s, seeds);
    SeedAllNamesPresent(s, seeds);
  }

  lemma {:induction false} SeedAllKeeps(s: Store, seeds: seq<Group>)
    requires IdsBelowCounters(s)
    ensures IdsBelowCounters(SeedAll(s, seeds))
    ensures forall k :: k in s.groups ==> k in SeedAll(s, seeds).groups && SeedAll(s, seeds).groups[k] == s.groups[k]
    decreases |seeds|
  {
    if |seeds| > 0 {
      SeedAllKeeps(SeedGroup(s, seeds[0]), seeds[1..]);
    }
  }

  lemma {:induction false} SeedAllNamesPresent(s: Store, seeds: seq<Group>)
    requires IdsBelowCounters(s)
    ensures forall i :: 0 <= i < |seeds| ==> HasGroupNamed(SeedAll(s, seeds).groups, seeds[i].name)
    decreases |seeds|
  {
    if |seeds| > 0 {
      var s1 := SeedGroup(s, seeds[0]);
      SeedAllKeeps(s1, seeds[1..]);
      SeedAllNamesPresent(s1, seeds[1..]);
      var r := SeedAll(s1, seeds[1..]);
      assert HasGroupNamed(r.groups, seeds[0].name) by {
        var id :| id in s1.groups && s1.groups[id].name == seeds[0].name;
        assert id in r.groups && r.groups[id] == s1.groups[id];
      }
      forall i | 1 <= i < |seeds|
        ensures HasGroupNamed(r.groups, seeds[i].name)
      {
        assert seeds[i] == seeds[1..][i - 1];
      }
    }
  }

  /** Seeding adds nothing but seed groups: every group either was there
      unchanged or is one of the seeds, and every new id is one the counter
      handed out during seeding. */
  lemma {:induction false} SeedAllAddsOnlySeeds(s: Store, seeds: seq<Group>)
    ensures forall k :: k in SeedAll(s, seeds).groups ==>
              (k in s.groups && SeedAll(s, seeds).groups[k] == s.groups[k]) || SeedAll(s, seeds).groups[k] in seeds
    ensures forall k :: k in SeedAll(s, seeds).groups && k !in s.groups ==>
              s.nextGroup <= k < SeedAll(s, seeds).nextGroup
    decreases |seeds|
  {
    if |seeds| > 0 {
      var s1 := SeedGroup(s, seeds[0]);
      SeedAllAddsOnlySeeds(s1, seeds[1..]);
      var r := SeedAll(s1, seeds[1..]);
      assert r == SeedAll(s, seeds);
      forall k | k in r.groups
        ensures (k in s.groups && r.groups[k] == s.groups[k]) || r.groups[k] in seeds
      {
        if r.groups[k] in seeds[1..] {
          assert r.groups[k] in seeds;
        }
      }
    }
  }

  /** After `init_db` every default group exists. */
  lemma InitDbSeedsAllGroups(s: Store)
    requires IdsBelowCounters(s)
    ensures forall i :: 0 <= i < |Seeds| ==> HasGroupNamed(InitDb(s).groups, Seeds[i].name)
  {
    SeedAllKeepsGroups(s, Seeds);
  }

  /** `init_db` adds at most the five default groups, under ids the
      counter had not yet handed out. */
  lemma InitDbAddsOnlySeeds(s: Store)
    ensures forall k :: k in InitDb(s).groups && k !in s.groups ==> InitDb(s).groups[k] in Seeds
    ensures forall k :: k in InitDb(s).groups && k !in s.groups ==> s.nextGroup <= k < s.nextGroup + |Seeds|
  {
    SeedAllAddsOnlySeeds(s, Seeds);
  }

  /** Seeding a store that already has every seed name changes nothing. */
  lemma {:induction false} SeedAllPresentIsNoop(s: Store, seeds: seq<Group>)
    requires forall i :: 0 <= i < |seeds| ==> HasGroupNamed(s.groups, seeds[i].name)
    ensures SeedAll(s, seeds) == s
    decreases |seeds|
  {
    if |seeds| > 0 {
      assert SeedGroup(s, seeds[0]) == s;
      forall i | 0 <= i < |seeds[1..]| ensures HasGroupNamed(s.groups, seeds[1..][i].name) {
        assert seeds[1..][i] == seeds[i + 1];
      }
      SeedAllPresentIsNoop(s, seeds[1..]);
    }
  }

  /** `init_db` is idempotent: running it on every start-up adds the default
      groups once. */
  lemma InitDbIdempotent(s: Store)
    requires IdsBelowCounters(s)
    ensures InitDb(InitDb(s)) == InitDb(s)
  {
    InitDbSeedsAllGroups(s);
    SeedAllPresentIsNoop(InitDb(s), Seeds);
  }

  /** Seeding keeps the store well formed. */
  lemma {:induction false} SeedAllWf(s: Store, seeds: seq<Group>)
    requires Wf(s)
    ensures Wf(SeedAll(s, seeds))
    decreases |seeds|
  {
    if |seeds| > 0 {
      SeedGroupWf(s, seeds[0]);
      SeedAllWf(SeedGroup(s, seeds[0]), seeds[1..]);
    }
  }

  lemma SeedGroupWf(s: Store, g: Group)
    requires Wf(s)
    ensures Wf(SeedGroup(s, g))
  {
    if !HasGroupNamed(s.groups, g.name) {
      var r := s.(groups := s.groups[s.nextGroup := g], nextGroup := s.nextGroup + 1);
      assert GroupNamesUnique(r.groups);
      GroupsOnlyWf(s, r);
    }
  }

  /** A change to the group table alone keeps the store well formed when
      the names stay unique and the ids below the counter. */
  lemma GroupsOnlyWf(s: Store, r: Store)
    requires Wf(s) && r.(groups := s.groups, nextGroup := s.nextGroup) == s
    requires GroupNamesUnique(r.groups) && forall k :: k in r.groups ==> k < r.nextGroup
    ensures Wf(r)
  {
    assert r.devices == s.devices && r.sales == s.sales && r.materials == s.materials && r.codes == s.codes;
  }

  lemma InitDbWf(s: Store)
    requires Wf(s)
    ensures Wf(InitDb(s))
  {
    SeedAllWf(s, Seeds);
  }

  /** On a new database the five default groups get ids 1 to 5, in order. */
  lemma InitDbOnEmpty()
    ensures InitDb(Empty).groups == map[1 := Seeds[0], 2 := Seeds[1], 3 := Seeds[2], 4 := Seeds[3], 5 := Seeds[4]]
    ensures InitDb(Empty).nextGroup == 6
  {
    var s1 := SeedGroup(Empty, Seeds[0]);
    assert s1.groups == map[1 := Seeds[0]];
    var s2 := SeedGroup(s1, Seeds[1]);
    assert !HasGroupNamed(s1.groups, "GL");
    assert s2.groups == map[1 := Seeds[0], 2 := Seeds[1]];
    var s3 := SeedGroup(s2, Seeds[2]);
    assert !HasGroupNamed(s2.groups, "RH");
    var s4 := SeedGroup(s3, Seeds[3]);
    assert !HasGroupNamed(s3.groups, "PCG");
    var s5 := SeedGroup(s4, Seeds[4]);
    assert !HasGroupNamed(s4.groups, "ALMACEN");
    assert SeedAll(s5, Seeds[5..]) == s5;
    assert SeedAll(s4, Seeds[4..]) == s5;
    assert SeedAll(s3, Seeds[3..]) == s5;
    assert SeedAll(s2, Seeds[2..]) == s5;
    assert SeedAll(s1, Seeds[1..]) == s5;
  }
}

=== FILE: uploads.dfy ===
/**
 * The photo-upload extension whitelist (`allowed_file`): a file name is
 * accepted when it has a '.' and the text after its last '.', lower-cased,
 * is one of the image extensions.
 */
module Uploads {
  import opened Wrappers

  const AllowedExtensions: set<string> := {"png", "jpg", "jpeg", "gif", "webp"}

  /** ASCII lower-casing of one character. */
  function LowerChar(c: char): char {
    if 'A' <= c <= 'Z' then (c as int + 32) as char else c
  }

  function Lower(s: string): (r: string)
    ensures |r| == |s|
    ensures forall i :: 0 <= i < |s| ==> r[i] == LowerChar(s[i])
  {
    if |s| == 0 then "" else [LowerChar(s[0])] + Lower(s[1..])
  }

  /** Position of the last '.' in `s`, if any. */
  function LastDot(s: string): (r: Option<nat>)
    ensures r.Some? ==> r.value < |s| && s[r.value] == '.'
    ensures r.Some? ==> forall j :: r.value < j < |s| ==> s[j] != '.'
    ensures r.None? <==> '.' !in s
  {
    if |s| == 0 then None
    else if s[|s| - 1] == '.' then Some(|s| - 1)
    else LastDot(s[..|s| - 1])
  }

  /** The text after the last '.' (`filename.rsplit('.', 1)[1]`). */
  function Extension(name: string): Option<string> {
    match LastDot(name)
    case None => None
    case Some(i) => Some(name[i + 1..])
  }

  function AllowedFile(name: string): (b: bool)
    ensures b ==> '.' in name
  {
    match Extension(name)
    case None => false
    case Some(ext) => Lower(ext) in AllowedExtensions
  }

  /** Splitting a name at its last dot: whatever the stem, a name `stem.ext`
      whose extension has no dot is accepted exactly when the lower-cased
      extension is whitelisted. */
  lemma {:induction false} AllowedFileOfStemAndExtension(stem: string, ext: string)
    requires '.' !in ext
    ensures AllowedFile(stem + "." + ext) <==> Lower(ext) in AllowedExtensions
  {
    var name := stem + "." + ext;
    var i := |stem|;
    assert name[i] == '.';
    assert forall j :: i < j < |name| ==> name[j] == ext[j - i - 1];
    assert name[i + 1..] == ext;
    var d := LastDot(name);
    assert d.Some?;
    assert d.value == i;
  }

  /** A name without any dot is never accepted, whatever it spells. */
  lemma NoDotRejected(name: string)
    requires '.' !in name
    ensures !AllowedFile(name)
  {
  }

  /** The case of the extension does not matter. */
  lemma UpperCaseExtensionAccepted()
    ensures AllowedFile("foto.JPG")
  {
    AllowedFileOfStemAndExtension("foto", "JPG");
    assert "foto" + "." + "JPG" == "foto.JPG";
    assert Lower("JPG") == "jpg" by {
      assert LowerChar('J') == 'j' && LowerChar('P') == 'p' && LowerChar('G') == 'g';
    }
  }

  /** Only the last extension counts. */
  lemma InnerExtensionIgnored()
    ensures !AllowedFile("archivo.png.exe")
  {
    var ext := "exe";
    assert Lower(ext) == ext by {
      assert LowerChar('e') == 'e' && LowerChar('x') == 'x';
    }
    assert ext !in AllowedExtensions;
    AllowedFileOfStemAndExtension("archivo.png", ext);
    assert "archivo.png" + "." + ext == "archivo.png.exe";
  }
}

=== FILE: wrappers.dfy ===
/** Optional values, used for absent form keys, NULL columns and failed lookups. */
module Wrappers {

  datatype Option<+T> = None | Some(value: T) {

    /** Returns the value held in Some, or the default when None. */
    function GetOr(default: T): T {
      match this
      case Some(v) => v
      case None => default
    }
  }
}
